=== FILE: README.md ===
# Chicago crimes and schools pipeline, modelled in Dafny

The pipeline pulls two open-data sets from the Chicago data portal, cleans
them, writes them as Parquet files into a storage bucket (the "lake"), and
builds warehouse tables over those files. This project models four parts of
it as pure Dafny functions and proves properties about them:

- **Crime extraction** (`extract_crimes_data.py`). For each requested year
  and each month from 1 to 12, the flow:
  - builds a download URL with a row cap and a `date between` predicate
    running from the month's first second to the last second of its last
    calendar day;
  - downloads the batch and skips it if it is empty;
  - otherwise drops the rows that lack a latitude or a longitude, and fills
    every remaining gap with the empty string;
  - uploads the result to `<path><stem>_<year>_<MM>.parquet`.
- **School extraction** (`extract_schools_data.py`). One download with a row
  cap, a filter on `Lat`/`Long`, and one upload to `<path><stem>.parquet`.
- **Warehouse load** (`load_data_to_bq.py`). Four `CREATE OR REPLACE`
  statements, run in this order:
  1. an external crimes table over a `gs://` wildcard URI;
  2. a crimes table copied from it, partitioned by day and clustered by
     location;
  3. an external schools table;
  4. a plain schools table.
- **Legacy crime ingester** (`get_row_data.py`). An older variant of the
  crime extraction:
  - its window always runs from second 01 of day 01 to day 31;
  - it puts no row cap on the query;
  - it adds a per-year directory to the lake path;
  - it does not skip empty batches.

Modules, one per file:

| module | file | contents |
|---|---|---|
| `Results` | results.dfy | `Option`, `Result`, and the two errors the model raises: an illegal month from `calendar.monthrange`, and a `KeyError` for a missing column |
| `Text` | text.dfy | `str(int)` and `'{:02d}'` as functions, with parse-back and injectivity lemmas |
| `Calendar` | calendar.dfy | Gregorian month lengths (`calendar.monthrange`), timestamps, and their ISO text |
| `Seqs` | seqs.dfy | order-preserving filtering, characterised by `SelectsExactly` and proved unique |
| `Frames` | frames.dfy | a data frame as column names plus rows of cells that are null, blank or a value; `df[df[[c]].notnull().all(1)]` and `fillna('')` |
| `Settings` | settings.dfy | environment variables as an explicit map |
| `Trace` | trace.dfy | a flow run as its downloads and uploads, ending at the first raised error |
| `Wildcards` | wildcards.dfy | `*` matching in a storage URI |
| `CrimesExtract` | crimes_extract.dfy | crime extraction |
| `SchoolsExtract` | schools_extract.dfy | school extraction |
| `WarehouseLoad` | warehouse_load.dfy | the four statements, their text, and `CREATE OR REPLACE` as a catalog update |
| `LegacyIngest` | legacy_ingest.dfy | the legacy crime ingester |
| `LakeLayout` | lake_layout.dfy | how the files the extractors write line up with the URIs the loader reads |

The main results are these:

- **The month window is exact, to the second.** At one-second
  resolution, a crimes month window holds exactly the valid instants of
  that month.
- **The legacy window is not.** Its window drops the month's first second.
  Its end bound is a real date only in 31-day months.
- **Cleaning is characterised.** Cleaning keeps exactly the rows that have
  both coordinates, in order. It is idempotent.
- **Upload paths never collide.** Crime upload paths are distinct for
  distinct (year, month), under any configuration.
- **Run traces are pinned down.** For each flow, the proofs fix which URLs a
  run downloads and which paths it writes, in order. Empty crimes batches
  are skipped; empty legacy batches are not.
- **Files line up with globs.** Under any one environment, every crimes
  upload path lands under the loader's crimes wildcard. The schools defaults do
  not line up, and neither do the legacy per-year files.
- **The load is idempotent.** Re-running it leaves the same catalog. The
  load defines exactly its four tables.

## Model

| member | source | states |
|---|---|---|
| Text.IntToDecimal | dtc_project/flows/extract_crimes_data.py:132-137 | the `{y}` rendering of a year is non-empty, all digits for a non-negative year, and a minus sign followed by digits for a negative one |
| Text.Pad2 | dtc_project/flows/extract_crimes_data.py:59-68 | the `{:02d}` rendering has at least two characters; for 0..99 it is exactly two digits |
| Text.ParseNatToDecimal | dtc_project/flows/extract_crimes_data.py:132-137 | reading the decimal text of a year back gives the year |
| Text.Pad2RoundTrip | dtc_project/flows/extract_crimes_data.py:132-137 | reading a zero-padded month back gives the month |
| Text.IntToDecimalInjective | dtc_project/flows/extract_crimes_data.py:132-137 | different years render differently |
| Text.Pad2Injective | dtc_project/flows/extract_crimes_data.py:132-137 | different months render differently, negative values included |
| Calendar.IsLeap | dtc_project/flows/extract_crimes_data.py:67 | `calendar.isleap`, the leap-year rule behind `monthrange`; specified through Calendar.DaysIn (February has 29 days exactly in a leap year) and Calendar.YearLength (366 days exactly in a leap year) |
| Calendar.DaysIn | dtc_project/flows/extract_crimes_data.py:67 | a month has 28 to 31 days; 31 exactly for months 1, 3, 5, 7, 8, 10 and 12; 30 exactly for 4, 6, 9 and 11; 29 exactly for February of a leap year |
| Calendar.MonthLength | dtc_project/flows/extract_crimes_data.py:64-68 | `monthrange` succeeds exactly for months 1 to 12, raising an illegal-month error naming the month otherwise |
| Calendar.YearLength | dtc_project/flows/extract_crimes_data.py:67 | the twelve month lengths sum to 366 in a leap year and 365 otherwise |
| Seqs.Filter | dtc_project/flows/extract_crimes_data.py:98 | a boolean-mask selection returns a subsequence of its input, holding only rows that pass the mask and every passing row as often as in the input |
| Seqs.SelectsExactlyUnique | dtc_project/flows/extract_crimes_data.py:98 | that description determines the result: any sequence meeting it equals the filter |
| Seqs.FilterFilter | dtc_project/flows/extract_crimes_data.py:98-99 | two successive mask selections equal one selection by the conjunction of the masks |
| Seqs.FilterIdempotent | dtc_project/flows/extract_crimes_data.py:98 | selecting twice by the same mask selects nothing more |
| Seqs.FilterIsIdentityIff | dtc_project/flows/extract_crimes_data.py:98 | a selection keeps every row if and only if every row passes |
| Frames.IsEmpty | dtc_project/flows/extract_crimes_data.py:161 | `DataFrame.empty`: the frame has no rows or no columns; the crimes empty-batch skip rests on it, through CrimesExtract.MonthStepWrites and CrimesExtract.MonthsWrites |
| Frames.DropNulls | dtc_project/flows/extract_crimes_data.py:98 | a `KeyError` naming the column exactly when the column is absent; otherwise same columns, exactly the rows where every column of that name is non-null, in order |
| Frames.DropRowsMissingCoordinates | dtc_project/flows/extract_crimes_data.py:98-99 | an error naming latitude first, then longitude, exactly when one is absent; otherwise exactly the rows with both coordinates, in order |
| Frames.FillNulls | dtc_project/flows/extract_crimes_data.py:100 | same shape, no null left, present and blank cells unchanged, each null cell made blank |
| Frames.FillNullsIdentityIff | dtc_project/flows/extract_crimes_data.py:100 | filling leaves a frame unchanged if and only if it has no null cell |
| Frames.FilledRowsHaveValues | dtc_project/flows/extract_crimes_data.py:100 | after filling, every row has a value in every column |
| Trace.FetchesAppend | dtc_project/flows/extract_crimes_data.py:155-163 | the downloads of consecutive steps are the first step's downloads followed by the second's |
| Trace.WritesAppend | dtc_project/flows/extract_crimes_data.py:155-163 | the same for upload paths |
| Trace.Uploads | dtc_project/flows/extract_crimes_data.py:138-143 | the uploads of a run, each a path with the batch written there; their paths are the upload paths, in order |
| Trace.UploadsAppend | dtc_project/flows/extract_crimes_data.py:155-163 | the uploads of consecutive steps are the first step's followed by the second's |
| Wildcards.MatchesStarInfix | dtc_project/flows/load_data_to_bq.py:84 | `<prefix>*<suffix>` matches `<prefix><anything><suffix>` |
| Wildcards.LiteralPrefixRequired | dtc_project/flows/load_data_to_bq.py:84 | a name matching a pattern starts with the pattern's literal text before its first `*` |
| Wildcards.StarAbsorbs | dtc_project/flows/load_data_to_bq.py:84 | a leading `*` absorbs any run of characters |
| Wildcards.MatchesItself | dtc_project/flows/load_data_to_bq.py:84 | a pattern matches its own text |
| CrimesExtract.ConfigFrom | dtc_project/flows/extract_crimes_data.py:117-130 | an empty environment yields the defaults `data/crimes/`, `chicago_crimes_` and `chicago-gcs-bucket`, and the `ijzp-q8t2.csv` URL of line 57 |
| CrimesExtract.StartBoundIsMonthStart | dtc_project/flows/extract_crimes_data.py:59-63 | the written start bound is the ISO text of second 00 of day 01 |
| CrimesExtract.EndBoundIsMonthEnd | dtc_project/flows/extract_crimes_data.py:64-68 | the written end bound is the ISO text of 23:59:59 on the month's last calendar day |
| CrimesExtract.CrimesUrl | dtc_project/flows/extract_crimes_data.py:59-80 | a URL exactly for months 1 to 12; an illegal-month error otherwise, before any download |
| CrimesExtract.CrimesUrlWindow | dtc_project/flows/extract_crimes_data.py:59-80 | the URL is the source URL, the row cap, then `date between '<month start>' and '<month end>'` percent-encoded |
| CrimesExtract.MonthWindowIsMonth | dtc_project/flows/extract_crimes_data.py:59-68 | at one-second resolution, a valid instant lies in the window if and only if it lies in that year and month: the date predicate loses no second of the month and takes in none of another month (the `$limit=100000` row cap is a separate bound) |
| CrimesExtract.MonthBoundsValid | dtc_project/flows/extract_crimes_data.py:64-68 | both bounds are valid instants; the end day is 28 to 31, and 29 exactly in a leap February |
| CrimesExtract.CleanCrimes | dtc_project/flows/extract_crimes_data.py:98-100 | among the failures modelled, an error exactly when a coordinate column is absent; otherwise the same columns and no null cell |
| CrimesExtract.CleanCrimesKeepsGeoRows | dtc_project/flows/extract_crimes_data.py:98-100 | the cleaned batch is the filled form of exactly the input rows with both coordinates, in order |
| CrimesExtract.CleanCrimesIdempotent | dtc_project/flows/extract_crimes_data.py:98-100 | cleaning a cleaned batch changes nothing |
| CrimesExtract.PartitionPath | dtc_project/flows/extract_crimes_data.py:132-137 | the month's lake path `<path><stem>_<year>_<MM>.parquet`; specified by CrimesExtract.PartitionPathsDistinct, CrimesExtract.DefaultPartitionPath and LakeLayout.PartitionMatchesGlob |
| CrimesExtract.DefaultPartitionPath | dtc_project/flows/extract_crimes_data.py:120-137 | with the defaults the path is `data/crimes/chicago_crimes__<year>_<MM>.parquet`, with a doubled underscore |
| CrimesExtract.PartitionPathsDistinct | dtc_project/flows/extract_crimes_data.py:132-137 | under any configuration, two (year, month) pairs share a `to_path` only if they are equal |
| CrimesExtract.IngestMonth | dtc_project/flows/extract_crimes_data.py:160-163 | one month step: download, then clean and upload unless the batch is empty; specified by CrimesExtract.MonthStepFetches, CrimesExtract.MonthStepWrites and CrimesExtract.MonthStepUploads |
| CrimesExtract.IngestMonthsFrom | dtc_project/flows/extract_crimes_data.py:150-167 | the months loop, stopping at the first step that raises; specified by CrimesExtract.MonthsFetchOrder, CrimesExtract.MonthsCompleteIff, CrimesExtract.MonthsWrites and CrimesExtract.MonthsUploads |
| CrimesExtract.IngestCrimesForYear | dtc_project/flows/extract_crimes_data.py:150-167 | the months loop from January; specified by the same lemmas at month 1 |
| CrimesExtract.ExtractCrimes | dtc_project/flows/extract_crimes_data.py:170-182 | the years loop, years in list order; specified by CrimesExtract.ExtractCrimesFetchOrder, CrimesExtract.ExtractCrimesWrites and CrimesExtract.DefaultYearsFetches |
| CrimesExtract.MonthUrlsFrom | dtc_project/flows/extract_crimes_data.py:155 | one URL per remaining month of the year |
| CrimesExtract.MonthStepFetches | dtc_project/flows/extract_crimes_data.py:160 | each month step downloads its own URL exactly once, empty batch or not |
| CrimesExtract.MonthsFetchOrder | dtc_project/flows/extract_crimes_data.py:155-163 | the months loop downloads a prefix of the month URLs in increasing order, and all of them when it completes |
| CrimesExtract.MonthsCompleteIff | dtc_project/flows/extract_crimes_data.py:155-163 | among the failures modelled, the loop completes if and only if every non-empty batch carries both coordinate columns |
| CrimesExtract.MonthStepWrites | dtc_project/flows/extract_crimes_data.py:161-163 | a completed month step uploads once, to its partition path, if its batch is non-empty, and not at all otherwise |
| CrimesExtract.MonthsWrites | dtc_project/flows/extract_crimes_data.py:155-163 | a completed loop uploads exactly for the months with non-empty batches, in increasing order, each at its own partition path |
| CrimesExtract.MonthsWriteCleanBatches | dtc_project/flows/extract_crimes_data.py:161-163 | every uploaded batch, completed run or not, has no null cell as it stands before the schema conversion of line 101 |
| CrimesExtract.MonthStepUploads | dtc_project/flows/extract_crimes_data.py:160-163 | a completed month step uploads the cleaned form of its own download, at its partition path, when the download has rows, and uploads nothing otherwise |
| CrimesExtract.MonthsUploads | dtc_project/flows/extract_crimes_data.py:155-163 | a completed loop uploads, in increasing month order, exactly one batch per month whose download has rows: that month's download after cleaning, at that month's partition path |
| CrimesExtract.YearsUrls | dtc_project/flows/extract_crimes_data.py:174-178 | twelve URLs per requested year |
| CrimesExtract.ExtractCrimesFetchOrder | dtc_project/flows/extract_crimes_data.py:171-178 | a completed extraction downloads each year in full, months in increasing order, years in list order: 12 downloads per year |
| CrimesExtract.ExtractCrimesWrites | dtc_project/flows/extract_crimes_data.py:170-182 | a completed extraction writes, year by year in list order, the partition path of every month whose download has rows, months in increasing order |
| CrimesExtract.DefaultYearsFetches | dtc_project/flows/extract_crimes_data.py:171-178 | with the default years, all of 2022 and then all of 2023: 24 downloads |
| SchoolsExtract.ConfigFrom | dtc_project/flows/extract_schools_data.py:34-80 | an empty environment yields the defaults `data/`, `chicago_schools`, `DTC-DE-BUCKET-BLOCK` and the `gqgn-ekwj.csv` URL |
| SchoolsExtract.SchoolsUrl | dtc_project/flows/extract_schools_data.py:39 | the schools download URL; specified by SchoolsExtract.SchoolsUrlHasNoDateFilter |
| SchoolsExtract.SchoolsUrlHasNoDateFilter | dtc_project/flows/extract_schools_data.py:39 | the URL is the source URL followed by exactly `?$limit=100000`, so it has no `&`-joined predicate |
| SchoolsExtract.CleanSchools | dtc_project/flows/extract_schools_data.py:53-54 | among the failures modelled, an error naming `Lat` first, then `Long`, exactly when one is absent; otherwise exactly the rows with both, in order, with no fill |
| SchoolsExtract.CleanSchoolsIdempotent | dtc_project/flows/extract_schools_data.py:53-54 | cleaning a cleaned batch changes nothing |
| SchoolsExtract.ThreeRowBatch | dtc_project/flows/extract_schools_data.py:53-54 | a three-row batch whose middle row lacks `Lat` cleans to its first and last rows |
| SchoolsExtract.SchoolsPath | dtc_project/flows/extract_schools_data.py:82-85 | the schools lake path `<path><stem>.parquet`; specified by SchoolsExtract.DefaultSchoolsPath and LakeLayout.SchoolsPathMatchesGlob |
| SchoolsExtract.DefaultSchoolsPath | dtc_project/flows/extract_schools_data.py:67-85 | with the defaults the file is `data/chicago_schools.parquet` |
| SchoolsExtract.ExtractSchools | dtc_project/flows/extract_schools_data.py:96-102 | one download of the schools URL; among the failures modelled, completes if and only if cleaning succeeds; then exactly one upload, to the schools path; no upload on failure |
| SchoolsExtract.ExtractSchoolsWritesGeoRows | dtc_project/flows/extract_schools_data.py:100-102 | the uploaded batch is exactly the downloaded rows with both coordinates, in download order |
| WarehouseLoad.ConfigFrom | dtc_project/flows/load_data_to_bq.py:21-71 | an empty environment yields the ten defaults, including `data/crimes/`, `chicago_crimes_`, `data/` and `schools` |
| WarehouseLoad.CreateExtCrimesTable | dtc_project/flows/load_data_to_bq.py:74-95 | the external crimes table statement; specified by WarehouseLoad.LoadStatementsShape, WarehouseLoad.Render and LakeLayout.SharedEnvCrimesAgree |
| WarehouseLoad.CreateCrimesTable | dtc_project/flows/load_data_to_bq.py:98-115 | the partitioned and clustered crimes table statement; specified by WarehouseLoad.LoadStatementsShape and WarehouseLoad.Render |
| WarehouseLoad.CreateExtSchoolsTable | dtc_project/flows/load_data_to_bq.py:118-140 | the external schools table statement; specified by WarehouseLoad.LoadStatementsShape, WarehouseLoad.Render and LakeLayout.SharedEnvSchoolsAgree |
| WarehouseLoad.CreateSchoolsTable | dtc_project/flows/load_data_to_bq.py:143-157 | the schools table statement; specified by WarehouseLoad.LoadStatementsShape and WarehouseLoad.Render |
| WarehouseLoad.LoadStatements | dtc_project/flows/load_data_to_bq.py:160-168 | the four statements in execution order; specified by WarehouseLoad.LoadStatementsShape and WarehouseLoad.LoadIdempotent |
| WarehouseLoad.LoadStatementsShape | dtc_project/flows/load_data_to_bq.py:74-168 | four statements, in this order: external crimes, crimes, external schools, schools. Both external tables read Parquet through one wildcard URI each. Only crimes is partitioned by `DATE(date)` and clustered by `location_description`. Each managed table copies the external table of its own name, created by an earlier statement |
| WarehouseLoad.ExecuteAllOverrides | dtc_project/flows/load_data_to_bq.py:81 | running `CREATE OR REPLACE` statements overrides the catalog with their definitions, later statements winning |
| WarehouseLoad.ExecuteAllKeys | dtc_project/flows/load_data_to_bq.py:81 | afterwards the catalog defines exactly the tables it had plus the tables the statements name |
| WarehouseLoad.ExecuteAllIdempotent | dtc_project/flows/load_data_to_bq.py:81 | running any statement list a second time leaves the catalog as the first run left it |
| WarehouseLoad.LoadIdempotent | dtc_project/flows/load_data_to_bq.py:161-168 | re-running the load changes nothing; the load adds exactly its four tables |
| WarehouseLoad.Render | dtc_project/flows/load_data_to_bq.py:80-150 | the four templates (lines 80-85, 104-108, 124-129 and 148-150): every statement text opens on a fresh indented line with `CREATE OR REPLACE`, then `EXTERNAL TABLE` or `TABLE` and the back-quoted target |
| WarehouseLoad.LoadDataToBq | dtc_project/flows/load_data_to_bq.py:161-168 | four statement texts are executed, each a `CREATE OR REPLACE`, in this order: the external crimes table, the crimes table, the external schools table, the schools table, each headed by its own back-quoted target |
| LegacyIngest.ConfigFrom | dtc_project/flows/get_row_data.py:46-49 | an empty environment yields the `ijzp-q8t2.csv` URL |
| LegacyIngest.LegacyStartBoundIsIso | dtc_project/flows/get_row_data.py:52 | the written start bound is the ISO text of 00:00:01 on day 01 |
| LegacyIngest.LegacyEndBoundIsIso | dtc_project/flows/get_row_data.py:53 | the written end bound is the ISO text of 23:59:59 on day 31, whatever the month |
| LegacyIngest.LegacyUrl | dtc_project/flows/get_row_data.py:51-65 | the legacy download URL; specified by LegacyIngest.LegacyUrlWindow, LegacyIngest.LegacyStartBoundIsIso and LegacyIngest.LegacyEndBoundIsIso |
| LegacyIngest.LegacyUrlWindow | dtc_project/flows/get_row_data.py:51-65 | the URL is the source URL then `?$where=date between '<start>' and '<end>'` percent-encoded, with no row cap |
| LegacyIngest.LegacyWindowExact | dtc_project/flows/get_row_data.py:52-53 | a valid instant lies in the legacy window if and only if it lies in that month and is not the month's first second; in months shorter than 31 days the impossible end bound is compared field by field |
| LegacyIngest.LegacyMissesMonthStart | dtc_project/flows/get_row_data.py:52 | the month's first second is a valid instant in the calendar window and outside the legacy one |
| LegacyIngest.LegacyEndValidIff | dtc_project/flows/get_row_data.py:53 | the end bound is a valid instant if and only if the month has 31 days |
| LegacyIngest.CleanData | dtc_project/flows/get_row_data.py:83-84 | among the failures modelled, an error naming latitude first, then longitude, exactly when one is absent; otherwise exactly the rows with both, in order, with no fill |
| LegacyIngest.LegacyPath | dtc_project/flows/get_row_data.py:100-103 | the legacy lake path `data/crimes/<year>/chicago_crimes_<year>_<MM>.parquet`; specified by LegacyIngest.LegacyPathInYearDirectory and LakeLayout.LegacyFilesOutsideCrimesGlob |
| LegacyIngest.IngestMonth | dtc_project/flows/get_row_data.py:126-128 | one month step: download, clean and upload, with no empty-batch check; specified, as the loop's first step, by LegacyIngest.MonthsFetches, LegacyIngest.MonthsWrites and LegacyIngest.MonthsUploads |
| LegacyIngest.IngestMonthsFrom | dtc_project/flows/get_row_data.py:116-132 | the months loop, stopping at the first step that raises; specified by LegacyIngest.MonthsCompleteIff, LegacyIngest.MonthsFetches, LegacyIngest.MonthsWrites and LegacyIngest.MonthsUploads |
| LegacyIngest.IngestDataForYear | dtc_project/flows/get_row_data.py:116-132 | the months loop from January; specified by the same lemmas at month 1 |
| LegacyIngest.IngestData | dtc_project/flows/get_row_data.py:135-147 | the years loop, years in list order; specified by LegacyIngest.IngestDataTrace and LegacyIngest.DefaultYearsTrace |
| LegacyIngest.LegacyPathInYearDirectory | dtc_project/flows/get_row_data.py:100-103 | every legacy path lies under `data/crimes/<year>/` |
| LegacyIngest.MonthUrlsFrom | dtc_project/flows/get_row_data.py:121 | one URL per remaining month |
| LegacyIngest.MonthPathsFrom | dtc_project/flows/get_row_data.py:100-103 | one path per remaining month |
| LegacyIngest.MonthsCompleteIff | dtc_project/flows/get_row_data.py:120-128 | among the failures modelled, the months loop completes if and only if every batch, empty or not, has both coordinate columns |
| LegacyIngest.MonthsFetches | dtc_project/flows/get_row_data.py:120-128 | the loop downloads a prefix of the month URLs in increasing order, and all of them when it completes |
| LegacyIngest.MonthsWrites | dtc_project/flows/get_row_data.py:120-128 | a completed loop uploads every month, empty batches included, in increasing order, at the year-directory paths |
| LegacyIngest.MonthsUploads | dtc_project/flows/get_row_data.py:120-128 | a completed loop uploads, for every month in increasing order, that month's download after cleaning, at that month's year-directory path |
| LegacyIngest.YearsUrls | dtc_project/flows/get_row_data.py:139-143 | twelve URLs per year |
| LegacyIngest.YearsPaths | dtc_project/flows/get_row_data.py:139-143 | twelve paths per year |
| LegacyIngest.IngestDataTrace | dtc_project/flows/get_row_data.py:136-143 | a completed run downloads and uploads all twelve months of each year, years in list order: 12 uploads per year |
| LegacyIngest.DefaultYearsTrace | dtc_project/flows/get_row_data.py:136-143 | with the default years, all of 2022 and then all of 2023 are uploaded: 24 files |
| LakeLayout.GlobShape | dtc_project/flows/load_data_to_bq.py:84 | the loader's URI is the object URI of `<path><stem>`, then `*`, then `.parquet` |
| LakeLayout.PartitionMatchesGlob | dtc_project/flows/load_data_to_bq.py:84 | every monthly crimes file matches the wildcard URI built from the same bucket, path and stem, for every year and month |
| LakeLayout.SharedEnvCrimesAgree | dtc_project/flows/load_data_to_bq.py:52-60 | under any one environment, the loader's crimes URI matches every crimes `to_path` in the loader's bucket |
| LakeLayout.CrimesGlobNeedsStem | dtc_project/flows/load_data_to_bq.py:84 | any object the crimes URI matches starts with the URI of the configured path and stem |
| LakeLayout.SchoolsPathMatchesGlob | dtc_project/flows/load_data_to_bq.py:128 | the schools file matches the URI built from the same bucket, path and stem, with `*` standing for nothing |
| LakeLayout.SharedEnvSchoolsAgree | dtc_project/flows/load_data_to_bq.py:63-71 | when the environment names the schools file stem, the loader's schools URI matches the file the school extractor writes |
| LakeLayout.SchoolsDefaultsDisagree | dtc_project/flows/load_data_to_bq.py:63-71 | with the defaults, the `schools*` URI does not match `chicago_schools.parquet`, in any bucket |
| LakeLayout.LegacyFilesOutsideCrimesGlob | dtc_project/flows/get_row_data.py:100-103 | with the loader's default crimes path and stem, no legacy per-year file matches the crimes URI |

## Left out

- Downloads are not modelled. `pd.read_csv` of the URL is a function
  parameter `fetch` from URL to frame. Network errors, HTTP errors and CSV
  parse errors are not modelled.
- Uploads are trace events. Several upload steps are not modelled:
  - `GcsBucket.load` of the block name;
  - the Parquet serialisation;
  - upload failures.
  The block name is carried in the configuration only. The stored object
  name is taken to be `to_path` verbatim. The storage library may rewrite
  the file extension of the name it is given. That makes no difference
  when the file stem has no `.` before `.parquet`, as with the defaults.
  For a stem such as `crimes.v2`, the stored names could differ from
  `to_path`, so months could overwrite one another and miss the loader's
  wildcard. That rewrite is not modelled. The path and wildcard results
  (CrimesExtract.PartitionPathsDistinct, LakeLayout.PartitionMatchesGlob,
  LakeLayout.SharedEnvCrimesAgree) are about `to_path`.
- Warehouse statements become catalog updates. `BigQueryWarehouse.load` and
  `execute` are not modelled, and neither are the contents of the tables
  (`SELECT *`, the effect of partitioning and clustering).
- CrimesExtract.CleanCrimes: `astype(schema)` (extract_crimes_data.py:101)
  is not modelled, and its failures are not among the errors the model
  raises. Cell values are opaque. Two failures of the code are therefore
  missing:
  - `astype` with a mapping raises `KeyError` when a schema key is not a
    column of the batch. The schema names 22 columns
    (extract_crimes_data.py:14-37), so a batch lacking any one of them fails.
  - After `fillna('')`, an empty string in an `int64` or `float64` column
    (`id`, `x_coordinate`, `y_coordinate`, `year`) cannot be converted, and
    the code raises `ValueError`. A batch with a null in any of those
    columns fails.
  The model's error is the missing coordinate column only. The conversion
  also changes cells without failing, which the model does not show either:
  `''` in the `datetime64[ns]` columns `date` and `updated_on` becomes
  `NaT`, a null again, and `''` in the `bool` columns `arrest` and
  `domestic` becomes `False`.
- CrimesExtract.MonthsWriteCleanBatches: "no null cell" describes the batch
  before `astype(schema)` (extract_crimes_data.py:101). The uploaded batch
  can hold `NaT` in `date` and `updated_on` where the fill left `''`, and
  `False` in `arrest` and `domestic`. Neither effect is modelled.
- SchoolsExtract.CleanSchools: `astype(schema)` (extract_schools_data.py:55)
  is not modelled. The filter reads `Lat` and `Long` (lines 9-10, 53-54),
  but the schema converts `lat` and `long` (lines 19-20) and names five
  other columns (lines 13-21). A batch lacking any schema column raises
  `KeyError`, and a null in the `int64` column `school_id` makes the
  conversion fail. Neither failure is modelled.
- LegacyIngest.CleanData: `astype(crimes_schema)` (get_row_data.py:85) is
  not modelled. A batch lacking one of the schema's columns (lines 11-35)
  raises `KeyError`. There is no fill step, so a null left in an `int64`
  column (`id`, `ward`, `year`) makes the conversion fail. The schema
  also gives `date` and `updated_on` the unitless type `'datetime64'`
  (lines 14 and 31), which recent pandas versions reject in `astype` with
  a `TypeError`. None of these failures is modelled.
- CrimesExtract.MonthsCompleteIff: completion is characterised only among
  the failures modelled. The conversion failures listed under
  CrimesExtract.CleanCrimes would also stop the loop.
- LegacyIngest.MonthsCompleteIff: the same holds, with the failures listed
  under LegacyIngest.CleanData.
- SchoolsExtract.ExtractSchools: the same holds, with the failures listed
  under SchoolsExtract.CleanSchools.
- LegacyIngest.LegacyWindowExact: in months of 30 days and in February
  the end bound `<year>-<MM>-31T23:59:59` (get_row_data.py:53) is not a
  date. The lemma reads it field by field, as a point after every instant
  of the month. The data portal might instead reject the query, which
  would raise and end the legacy run, or read the bound as a date in the
  next month. Neither reading is modelled. For 31-day months the bound is
  a real date and the lemma needs no such reading.
- Calendar.Timestamp: instants are whole seconds. The data portal's
  timestamps also carry milliseconds, which are not modelled.
- CrimesExtract.MonthWindowIsMonth: the window is proved exact at
  one-second resolution only. An instant after 23:59:59 but before
  midnight on the month's last day (23:59:59.500, say) lies after the end
  bound and in no month's window. That gap is not modelled. The query's
  `$limit=100000` row cap (extract_crimes_data.py:59) is not modelled
  either: a month with more rows than the cap is downloaded only in part,
  whatever the window.
- WarehouseLoad.Render: its contract states only the opening header of
  each text. The full layout is given by its definition, not proved
  against an independent template.
- Environment lookups are read as mapping lookups. The school extractor
  and the legacy ingester call `os.environ(...)` as a function, which
  raises in Python. The school extractor also resolves the block name
  through the environment a second time (extract_schools_data.py:86).
  Neither behaviour is modelled.
- The loader's settings are read once, at import time. The model takes
  them as a configuration argument.
- Logging, the Prefect `flow`/`task` wrappers, and the `__main__` entry
  points are not modelled. Those entry points would run the years
  2020–2022.
- Calendar.Iso is not proved injective. The path and URL lemmas rest on
  the injectivity of the year and month renderings instead.
- The deployment, block-registration and dbt files are not part of this
  model.

## Findings

| source | as written | input that shows it | evidently intended | confidence | as-written member | corrected member |
|---|---|---|---|---|---|---|
| dtc_project/flows/get_row_data.py:52 | the window starts at `<year>-<MM>-01T00:00:01` | a crime recorded at 2023-03-01T00:00:00 is outside March's window; whether February's window, which ends at the impossible `2023-02-31T23:59:59`, takes it in depends on how the portal reads that bound, which is not modelled | start at `T00:00:00`, as extract_crimes_data.py:59 does | not executed; the predicate is inclusive at both ends, so the midnight record is outside March's window | LegacyIngest.LegacyMissesMonthStart | CrimesExtract.MonthWindowIsMonth |
| dtc_project/flows/get_row_data.py:53 | the window always ends at `<year>-<MM>-31T23:59:59` | month 4 of 2023 gives the end bound 2023-04-31T23:59:59, which is not a date | end on the month's last day from `calendar.monthrange`, as extract_crimes_data.py:64-68 does | not executed; how the portal treats an impossible date is not modelled | LegacyIngest.LegacyEndValidIff | CrimesExtract.MonthBoundsValid |

=== FILE: calendar.dfy ===
/** Gregorian calendar arithmetic as Python's `calendar` module does it,
    and the second-resolution timestamps that bound the crime queries. */
module Calendar {
  import opened Results
  import opened Text

  /** `calendar.isleap`: divisible by 4, except centuries not divisible by 400.
      Python's `%` floors, which for a positive divisor agrees with Dafny's. */
  predicate IsLeap(year: int) {
    year % 4 == 0 && (year % 100 != 0 || year % 400 == 0)
  }

  /** The month-length table of the `calendar` module, indexed from 1. */
  const MonthDays: seq<int> := [0, 31, 28, 31, 30, 31, 30, 31, 31, 30, 31, 30, 31]

  /** Number of days in a month: the table entry plus one for a leap February. */
  function DaysIn(year: int, month: int): (days: int)
    requires 1 <= month <= 12
    ensures 28 <= days <= 31
    ensures days == 31 <==> month in {1, 3, 5, 7, 8, 10, 12}
    ensures days == 30 <==> month in {4, 6, 9, 11}
    ensures days == 29 <==> month == 2 && IsLeap(year)
    ensures days == 28 <==> month == 2 && !IsLeap(year)
  {
    MonthDays[month] + if month == 2 && IsLeap(year) then 1 else 0
  }

  /** The day count `calendar.monthrange(year, month)[1]`; a month outside
      1..12 raises `IllegalMonthError` instead. */
  function MonthLength(year: int, month: int): (r: Result<int>)
    ensures r.Ok? <==> 1 <= month <= 12
    ensures r.Err? ==> r.error == IllegalMonth(month)
    ensures r.Ok? ==> r.value == DaysIn(year, month)
  {
    if 1 <= month <= 12 then Ok(DaysIn(year, month)) else Err(IllegalMonth(month))
  }

  /** Days in the months before `month`, counted from January. */
  function DaysBefore(year: int, month: int): int
    requires 1 <= month <= 13
    decreases month
  {
    if month == 1 then 0 else DaysBefore(year, month - 1) + DaysIn(year, month - 1)
  }

  /** The twelve month lengths add up to the length of the Gregorian year. */
  lemma YearLength(year: int)
    ensures DaysBefore(year, 13) == if IsLeap(year) then 366 else 365
  {
  }

  /** A wall-clock instant truncated to whole seconds.  The query bounds are
      written at this resolution; the data portal's own timestamps also
      carry milliseconds, which this type does not represent. */
  datatype Timestamp = Timestamp(year: int, month: int, day: int, hour: int, minute: int, second: int)

  /** The timestamp names an existing calendar second. */
  predicate Valid(t: Timestamp) {
    && 1 <= t.month <= 12
    && 1 <= t.day <= DaysIn(t.year, t.month)
    && 0 <= t.hour < 24
    && 0 <= t.minute < 60
    && 0 <= t.second < 60
  }

  /** Chronological order: field by field, most significant first. */
  predicate NotAfter(a: Timestamp, b: Timestamp) {
    if a.year != b.year then a.year < b.year
    else if a.month != b.month then a.month < b.month
    else if a.day != b.day then a.day < b.day
    else if a.hour != b.hour then a.hour < b.hour
    else if a.minute != b.minute then a.minute < b.minute
    else a.second <= b.second
  }

  /** `t between lo and hi` in the query language: both ends inclusive. */
  predicate Between(t: Timestamp, lo: Timestamp, hi: Timestamp) {
    NotAfter(lo, t) && NotAfter(t, hi)
  }

  /** ISO rendering `Y-MM-DDTHH:MM:SS`, the year as `str` renders it. */
  function Iso(t: Timestamp): string {
    IntToDecimal(t.year) + "-" + Pad2(t.month) + "-" + Pad2(t.day)
    + "T" + Pad2(t.hour) + ":" + Pad2(t.minute) + ":" + Pad2(t.second)
  }
}

=== FILE: crimes_extract.dfy ===
/** The crime extractor: one query per calendar month whose date window is
    exactly that month, a clean step that drops rows without coordinates and
    fills the remaining gaps, and one lake file per (year, month). */
module CrimesExtract {
  import opened Results
  import opened Text
  import opened Calendar
  import opened Seqs
  import opened Frames
  import opened Settings
  import opened Trace

  const LatitudeColumn := "latitude"
  const LongitudeColumn := "longitude"
  const DefaultYears: seq<int> := [2022, 2023]

  /** The row cap of one query of the data portal. */
  const RowLimitFilter := "?$limit=100000"

  /** Where the extractor reads from and writes to. */
  datatype Config = Config(sourceUrl: string, path: string, fileStem: string, bucketBlock: string)

  const DefaultConfig := Config(
    "https://data.cityofchicago.org/resource/ijzp-q8t2.csv",
    "data/crimes/",
    "chicago_crimes_",
    "chicago-gcs-bucket")

  /** Each setting is the environment variable of its name when set, else
      the default. */
  function ConfigFrom(env: Env): (cfg: Config)
    ensures env == map[] ==> cfg == DefaultConfig
  {
    Config(
      Lookup(env, "RAW_DATA_CRIMES_URL", DefaultConfig.sourceUrl),
      Lookup(env, "GCS_BUCKET_CRIMES_PATH", DefaultConfig.path),
      Lookup(env, "GCS_BUCKET_CRIMES_FILE_NAME", DefaultConfig.fileStem),
      Lookup(env, "GCS_BUCKET_BLOCK_NAME", DefaultConfig.bucketBlock))
  }

  /** First second of the month. */
  function MonthStart(year: int, month: int): Timestamp {
    Timestamp(year, month, 1, 0, 0, 0)
  }

  /** Last second of the month. */
  function MonthEnd(year: int, month: int): Timestamp
    requires 1 <= month <= 12
  {
    Timestamp(year, month, DaysIn(year, month), 23, 59, 59)
  }

  /** Fragments of the percent-encoded query predicate
      `date between '<start>' and '<end>'`. */
  const WhereDateBetween := "&$where=date%20between%20%27"
  const And := "%27%20and%20%27"
  const Quote := "%27"

  /** The start bound as the extractor writes it. */
  function StartBound(year: int, month: int): string {
    IntToDecimal(year) + "-" + Pad2(month) + "-01T00:00:00"
  }

  /** The end bound as the extractor writes it, `days` from `monthrange`. */
  function EndBound(year: int, month: int, days: int): string {
    IntToDecimal(year) + "-" + Pad2(month) + "-" + Pad2(days) + "T23:59:59"
  }

  /** The written start bound is the ISO form of the month's first second. */
  lemma StartBoundIsMonthStart(year: int, month: int)
    ensures StartBound(year, month) == Iso(MonthStart(year, month))
  {
    assert Pad2(1) == "01" && Pad2(0) == "00";
  }

  /** The written end bound is the ISO form of the month's last second. */
  lemma EndBoundIsMonthEnd(year: int, month: int)
    requires 1 <= month <= 12
    ensures EndBound(year, month, DaysIn(year, month)) == Iso(MonthEnd(year, month))
  {
    assert Pad2(23) == "23" && Pad2(59) == "59";
  }

  /** The download URL for one month: the row cap followed by a
      `date between '<start>' and '<end>'` predicate, percent-encoded.  The
      month length comes from `calendar.monthrange`, which rejects a month
      outside 1..12 before anything is downloaded. */
  function CrimesUrl(cfg: Config, year: int, month: int): (r: Result<string>)
    ensures r.Ok? <==> 1 <= month <= 12
    ensures r.Err? ==> r.error == IllegalMonth(month)
  {
    match MonthLength(year, month)
    case Err(e) => Err(e)
    case Ok(days) =>
      var startDate := WhereDateBetween + StartBound(year, month);
      var endDate := EndBound(year, month, days);
      var dataFilter := RowLimitFilter + startDate + And + endDate + Quote;
      Ok(cfg.sourceUrl + dataFilter)
  }

  /** The URL is the source URL, the row cap, and a predicate whose bounds
      are the first and the last second of the month. */
  lemma CrimesUrlWindow(cfg: Config, year: int, month: int)
    requires 1 <= month <= 12
    ensures CrimesUrl(cfg, year, month).value
            == cfg.sourceUrl + (RowLimitFilter + (WhereDateBetween + Iso(MonthStart(year, month)))
               + And + Iso(MonthEnd(year, month)) + Quote)
  {
    StartBoundIsMonthStart(year, month);
    EndBoundIsMonthEnd(year, month);
  }

  /** At one-second resolution, the window of a month's query holds exactly
      the valid instants of that month: no whole second is lost at either
      end and no second of a neighbouring month is fetched twice.  An
      instant with a fraction of a second after 23:59:59 on the last day
      lies beyond the end bound; such instants are outside this model. */
  lemma MonthWindowIsMonth(year: int, month: int, t: Timestamp)
    requires 1 <= month <= 12 && Valid(t)
    ensures Between(t, MonthStart(year, month), MonthEnd(year, month))
            <==> t.year == year && t.month == month
  {
  }

  /** Both bounds name real seconds of the same month, and the end day is
      the month's Gregorian length. */
  lemma MonthBoundsValid(year: int, month: int)
    requires 1 <= month <= 12
    ensures Valid(MonthStart(year, month)) && Valid(MonthEnd(year, month))
    ensures 28 <= MonthEnd(year, month).day <= 31
    ensures MonthEnd(year, month).day == 29 <==> month == 2 && IsLeap(year)
  {
  }

  /** `clean_crimes`: drop rows missing latitude, then rows missing
      longitude, then fill every remaining gap with the empty string
      (coercion to the schema is not modelled). */
  function CleanCrimes<V>(f: Frame<V>): (r: Result<Frame<V>>)
    ensures r.Err? <==> LatitudeColumn !in f.columns || LongitudeColumn !in f.columns
    ensures r.Err? ==> r.error == MissingColumn(
      if LatitudeColumn !in f.columns then LatitudeColumn else LongitudeColumn)
    ensures r.Ok? ==> r.value.columns == f.columns && NoNulls(r.value)
  {
    match DropRowsMissingCoordinates(f, LatitudeColumn, LongitudeColumn)
    case Err(e) => Err(e)
    case Ok(g) => Ok(FillNulls(g))
  }

  /** The two successive coordinate filters keep exactly the rows that have
      both coordinates, in order; the fill then touches only missing cells
      of those rows. */
  lemma CleanCrimesKeepsGeoRows<V>(f: Frame<V>)
    requires CleanCrimes(f).Ok?
    ensures CleanCrimes(f).value
            == FillNulls(Frame(f.columns, Filter(f.rows, CoordinatesIn(f.columns, LatitudeColumn, LongitudeColumn))))
  {
    var g := DropRowsMissingCoordinates(f, LatitudeColumn, LongitudeColumn).value;
    SelectsExactlyUnique(g.rows, f.rows, CoordinatesIn(f.columns, LatitudeColumn, LongitudeColumn));
    assert g == Frame(f.columns, g.rows);
  }

  /** Cleaning a cleaned batch changes nothing. */
  lemma CleanCrimesIdempotent<V>(f: Frame<V>)
    requires CleanCrimes(f).Ok?
    ensures CleanCrimes(CleanCrimes(f).value) == CleanCrimes(f)
  {
    var c := CleanCrimes(f).value;
    var keep := CoordinatesIn(c.columns, LatitudeColumn, LongitudeColumn);
    forall row | row in c.rows
      ensures keep(row)
    {
    }
    FilterKeepsAll(c.rows, ValueIn(c.columns, LatitudeColumn));
    FilterKeepsAll(c.rows, ValueIn(c.columns, LongitudeColumn));
    FillNullsIdentityIff(c);
  }

  /** `write_crimes_to_gcs`: `<path><file stem>_<year>_<MM>.parquet`. */
  function PartitionPath(cfg: Config, year: int, month: int): string {
    cfg.path + cfg.fileStem + "_" + IntToDecimal(year) + "_" + Pad2(month) + ".parquet"
  }

  /** With the defaults the stem's own trailing underscore doubles up. */
  lemma DefaultPartitionPath(year: int, month: int)
    ensures PartitionPath(DefaultConfig, year, month)
            == "data/crimes/chicago_crimes__" + IntToDecimal(year) + "_" + Pad2(month) + ".parquet"
  {
    DefaultPartitionPrefix();
  }

  lemma DefaultPartitionPrefix()
    ensures DefaultConfig.path + DefaultConfig.fileStem + "_" == "data/crimes/chicago_crimes__"
  {
    var cfg := DefaultConfig;
    assert cfg.path == "data/crimes/" && cfg.fileStem == "chicago_crimes_";
    assert "data/crimes/" + "chicago_crimes_" + "_" == "data/crimes/chicago_crimes__";
  }

  lemma NoUnderscoreInDecimal(n: int)
    ensures '_' !in IntToDecimal(n)
  {
  }

  lemma PartitionPathShape(cfg: Config, year: int, month: int)
    ensures PartitionPath(cfg, year, month)
            == (cfg.path + cfg.fileStem + "_") + (IntToDecimal(year) + ['_'] + (Pad2(month) + ".parquet"))
  {
  }

  /** Distinct partitions never share an upload path, whatever the
      configuration. */
  lemma PartitionPathsDistinct(cfg: Config, y1: int, m1: int, y2: int, m2: int)
    ensures PartitionPath(cfg, y1, m1) == PartitionPath(cfg, y2, m2) ==> y1 == y2 && m1 == m2
  {
    if PartitionPath(cfg, y1, m1) == PartitionPath(cfg, y2, m2) {
      var head := cfg.path + cfg.fileStem + "_";
      var d1, d2 := IntToDecimal(y1), IntToDecimal(y2);
      var t1, t2 := Pad2(m1) + ".parquet", Pad2(m2) + ".parquet";
      PartitionPathShape(cfg, y1, m1);
      PartitionPathShape(cfg, y2, m2);
      StripPrefix(head, d1 + ['_'] + t1, d2 + ['_'] + t2);
      NoUnderscoreInDecimal(y1);
      NoUnderscoreInDecimal(y2);
      SplitAtSeparator(d1, t1, d2, t2, '_');
      IntToDecimalInjective(y1, y2);
      StripSuffix(Pad2(m1), Pad2(m2), ".parquet");
      Pad2Injective(m1, m2);
    }
  }

  /** `get_crimes_for_month`, then clean and write unless the batch is empty. */
  function IngestMonth<V>(cfg: Config, fetch: string -> Frame<V>, year: int, month: int): Run<V> {
    match CrimesUrl(cfg, year, month)
    case Err(e) => Run([], Failed(e))
    case Ok(url) =>
      var batch := fetch(url);
      if IsEmpty(batch) then Run([Fetch(url)], Completed)
      else match CleanCrimes(batch)
        case Err(e) => Run([Fetch(url)], Failed(e))
        case Ok(clean) => Run([Fetch(url), Write(PartitionPath(cfg, year, month), clean)], Completed)
  }

  /** The months loop of `ingest_crimes_for_year`, from `month` to 12. */
  function IngestMonthsFrom<V>(cfg: Config, fetch: string -> Frame<V>, year: int, month: int): Run<V>
    decreases 13 - month
  {
    if month > 12 then Run([], Completed)
    else Then(IngestMonth(cfg, fetch, year, month), IngestMonthsFrom(cfg, fetch, year, month + 1))
  }

  /** `ingest_crimes_for_year`: months 1 to 12. */
  function IngestCrimesForYear<V>(cfg: Config, fetch: string -> Frame<V>, year: int): Run<V> {
    IngestMonthsFrom(cfg, fetch, year, 1)
  }

  /** `extract_crimes`: the years in list order, each year in full. */
  function ExtractCrimes<V>(cfg: Config, fetch: string -> Frame<V>, years: seq<int>): Run<V> {
    if |years| == 0 then Run([], Completed)
    else Then(IngestCrimesForYear(cfg, fetch, years[0]), ExtractCrimes(cfg, fetch, years[1..]))
  }

  /** The URLs of months `month`..12 of `year`, in increasing month order. */
  function MonthUrlsFrom(cfg: Config, year: int, month: int): (urls: seq<string>)
    requires 1 <= month <= 13
    ensures |urls| == 13 - month
  {
    seq(13 - month, i requires 0 <= i < 13 - month => CrimesUrl(cfg, year, month + i).value)
  }

  /** Months `month`..12 in increasing order. */
  function MonthsFrom(month: int): (ms: seq<int>)
    requires 1 <= month <= 13
    ensures |ms| == 13 - month
  {
    seq(13 - month, i requires 0 <= i < 13 - month => month + i)
  }

  /** The download for this month returns a non-empty batch. */
  predicate HasRows<V>(cfg: Config, fetch: string -> Frame<V>, year: int, month: int) {
    CrimesUrl(cfg, year, month).Ok? && !IsEmpty(fetch(CrimesUrl(cfg, year, month).value))
  }

  function HasRowsIn<V>(cfg: Config, fetch: string -> Frame<V>, year: int): int -> bool {
    month => HasRows(cfg, fetch, year, month)
  }

  /** The month's batch is empty or carries both coordinate columns. */
  predicate Cleanable<V>(cfg: Config, fetch: string -> Frame<V>, year: int, month: int) {
    HasRows(cfg, fetch, year, month) ==> CleanCrimes(fetch(CrimesUrl(cfg, year, month).value)).Ok?
  }

  lemma MonthsFromStep(month: int)
    requires 1 <= month <= 12
    ensures MonthsFrom(month) == [month] + MonthsFrom(month + 1)
  {
  }

  lemma MonthUrlsFromStep(cfg: Config, year: int, month: int)
    requires 1 <= month <= 12
    ensures MonthUrlsFrom(cfg, year, month)
            == [CrimesUrl(cfg, year, month).value] + MonthUrlsFrom(cfg, year, month + 1)
  {
    var a := MonthUrlsFrom(cfg, year, month);
    var tail := MonthUrlsFrom(cfg, year, month + 1);
    var b := [CrimesUrl(cfg, year, month).value] + tail;
    forall i | 0 <= i < |a|
      ensures a[i] == b[i]
    {
      if i > 0 {
        assert b[i] == tail[i - 1];
      }
    }
  }

  /** Every month step downloads its month's URL once. */
  lemma MonthStepFetches<V>(cfg: Config, fetch: string -> Frame<V>, year: int, month: int)
    requires 1 <= month <= 12
    ensures Fetches(IngestMonth(cfg, fetch, year, month).events) == [CrimesUrl(cfg, year, month).value]
  {
  }

  /** The months loop downloads in increasing month order, stopping early
      only if a step raises; a run that completes downloads every month. */
  lemma {:induction false} MonthsFetchOrder<V>(cfg: Config, fetch: string -> Frame<V>, year: int, month: int)
    requires 1 <= month <= 13
    ensures Fetches(IngestMonthsFrom(cfg, fetch, year, month).events) <= MonthUrlsFrom(cfg, year, month)
    ensures IngestMonthsFrom(cfg, fetch, year, month).status.Completed? ==>
              Fetches(IngestMonthsFrom(cfg, fetch, year, month).events) == MonthUrlsFrom(cfg, year, month)
    decreases 13 - month
  {
    if month <= 12 {
      var step := IngestMonth(cfg, fetch, year, month);
      var rest := IngestMonthsFrom(cfg, fetch, year, month + 1);
      MonthUrlsFromStep(cfg, year, month);
      MonthStepFetches(cfg, fetch, year, month);
      if step.status.Completed? {
        FetchesAppend(step.events, rest.events);
        MonthsFetchOrder(cfg, fetch, year, month + 1);
      }
    }
  }

  /** A run of the months loop completes exactly when every non-empty
      batch carries both coordinate columns. */
  lemma {:induction false} MonthsCompleteIff<V>(cfg: Config, fetch: string -> Frame<V>, year: int, month: int)
    requires 1 <= month <= 13
    ensures IngestMonthsFrom(cfg, fetch, year, month).status.Completed?
            <==> forall m | month <= m <= 12 :: Cleanable(cfg, fetch, year, m)
    decreases 13 - month
  {
    if month <= 12 {
      MonthsCompleteIff(cfg, fetch, year, month + 1);
      var step := IngestMonth(cfg, fetch, year, month);
      assert step.status.Completed? <==> Cleanable(cfg, fetch, year, month);
      if Cleanable(cfg, fetch, year, month) {
        assert (forall m | month <= m <= 12 :: Cleanable(cfg, fetch, year, m))
               <==> (forall m | month + 1 <= m <= 12 :: Cleanable(cfg, fetch, year, m));
      }
    }
  }

  lemma FilterMonthsStep(month: int, keep: int -> bool)
    requires 1 <= month <= 12
    ensures Filter(MonthsFrom(month), keep)
            == (if keep(month) then [month] else []) + Filter(MonthsFrom(month + 1), keep)
  {
    MonthsFromStep(month);
    assert MonthsFrom(month)[0] == month && MonthsFrom(month)[1..] == MonthsFrom(month + 1);
  }

  /** A completed month step uploads once when its batch has rows and not
      at all otherwise. */
  lemma MonthStepWrites<V>(cfg: Config, fetch: string -> Frame<V>, year: int, month: int)
    requires 1 <= month <= 12
    requires IngestMonth(cfg, fetch, year, month).status.Completed?
    ensures Writes(IngestMonth(cfg, fetch, year, month).events)
            == if HasRows(cfg, fetch, year, month) then [PartitionPath(cfg, year, month)] else []
  {
  }

  /** In a completed run, a lake file is written for exactly the months
      whose batch is non-empty, in increasing month order, each at its own
      month's partition path. */
  lemma {:induction false} MonthsWrites<V>(cfg: Config, fetch: string -> Frame<V>, year: int, month: int)
    requires 1 <= month <= 13
    requires IngestMonthsFrom(cfg, fetch, year, month).status.Completed?
    ensures Writes(IngestMonthsFrom(cfg, fetch, year, month).events)
            == Map(Filter(MonthsFrom(month), HasRowsIn(cfg, fetch, year)), m => PartitionPath(cfg, year, m))
    decreases 13 - month
  {
    var path := m => PartitionPath(cfg, year, m);
    var keep := HasRowsIn(cfg, fetch, year);
    if month <= 12 {
      var step := IngestMonth(cfg, fetch, year, month);
      var rest := IngestMonthsFrom(cfg, fetch, year, month + 1);
      var written := if keep(month) then [month] else [];
      FilterMonthsStep(month, keep);
      MonthStepWrites(cfg, fetch, year, month);
      assert Writes(step.events) == Map(written, path);
      WritesAppend(step.events, rest.events);
      MonthsWrites(cfg, fetch, year, month + 1);
      MapAppend(written, Filter(MonthsFrom(month + 1), keep), path);
    } else {
      assert Filter(MonthsFrom(month), keep) == [];
    }
  }

  /** Everything the months loop uploads is a cleaned batch as it stands
      before the schema conversion: no missing cell, so in particular every
      row has both coordinates. */
  lemma {:induction false} MonthsWriteCleanBatches<V>(cfg: Config, fetch: string -> Frame<V>, year: int, month: int)
    requires 1 <= month <= 13
    ensures forall k | 0 <= k < |IngestMonthsFrom(cfg, fetch, year, month).events| ::
              IngestMonthsFrom(cfg, fetch, year, month).events[k].Write? ==>
                NoNulls(IngestMonthsFrom(cfg, fetch, year, month).events[k].data)
    decreases 13 - month
  {
    if month <= 12 {
      MonthsWriteCleanBatches(cfg, fetch, year, month + 1);
    }
  }

  /** What cleaning the month's download yields: the cleaned batch, or the
      error the month raises. */
  function CleanedMonth<V>(cfg: Config, fetch: string -> Frame<V>, year: int, month: int): Result<Frame<V>> {
    match CrimesUrl(cfg, year, month)
    case Err(e) => Err(e)
    case Ok(url) => CleanCrimes(fetch(url))
  }

  /** The upload a month owes: its partition path and its cleaned batch. */
  function UploadFor<V>(cfg: Config, fetch: string -> Frame<V>, year: int): int -> (string, Result<Frame<V>>) {
    month => (PartitionPath(cfg, year, month), CleanedMonth(cfg, fetch, year, month))
  }

  /** A completed month step uploads the cleaned form of its own download
      when that download has rows, and nothing otherwise. */
  lemma MonthStepUploads<V>(cfg: Config, fetch: string -> Frame<V>, year: int, month: int)
    requires 1 <= month <= 12
    requires IngestMonth(cfg, fetch, year, month).status.Completed?
    ensures Map(Uploads(IngestMonth(cfg, fetch, year, month).events), Succeeded)
            == Map(if HasRows(cfg, fetch, year, month) then [month] else [], UploadFor(cfg, fetch, year))
  {
    var step := IngestMonth(cfg, fetch, year, month);
    var url := CrimesUrl(cfg, year, month).value;
    if HasRows(cfg, fetch, year, month) {
      var clean := CleanCrimes(fetch(url)).value;
      assert step.events == [Fetch(url), Write(PartitionPath(cfg, year, month), clean)];
      assert step.events[1..][1..] == [];
      assert Uploads(step.events) == [(PartitionPath(cfg, year, month), clean)];
    } else {
      assert step.events == [Fetch(url)];
      assert step.events[1..] == [];
    }
  }

  /** In a completed run, the months loop uploads, in increasing month
      order, exactly one batch per month whose download has rows: that
      month's download after cleaning, at that month's partition path. */
  lemma {:induction false} MonthsUploads<V>(cfg: Config, fetch: string -> Frame<V>, year: int, month: int)
    requires 1 <= month <= 13
    requires IngestMonthsFrom(cfg, fetch, year, month).status.Completed?
    ensures Map(Uploads(IngestMonthsFrom(cfg, fetch, year, month).events), Succeeded)
            == Map(Filter(MonthsFrom(month), HasRowsIn(cfg, fetch, year)), UploadFor(cfg, fetch, year))
    decreases 13 - month
  {
    var upload := UploadFor(cfg, fetch, year);
    var keep := HasRowsIn(cfg, fetch, year);
    if month <= 12 {
      var step := IngestMonth(cfg, fetch, year, month);
      var rest := IngestMonthsFrom(cfg, fetch, year, month + 1);
      var written := if keep(month) then [month] else [];
      FilterMonthsStep(month, keep);
      MonthStepUploads(cfg, fetch, year, month);
      UploadsAppend(step.events, rest.events);
      MapAppend(Uploads(step.events), Uploads(rest.events), Succeeded);
      MonthsUploads(cfg, fetch, year, month + 1);
      MapAppend(written, Filter(MonthsFrom(month + 1), keep), upload);
    } else {
      assert Filter(MonthsFrom(month), keep) == [];
    }
  }

  /** The URLs of all months of all years, years in list order. */
  function YearsUrls(cfg: Config, years: seq<int>): (urls: seq<string>)
    ensures |urls| == 12 * |years|
  {
    if |years| == 0 then [] else MonthUrlsFrom(cfg, years[0], 1) + YearsUrls(cfg, years[1..])
  }

  /** A completed extraction downloads twelve months per year, years in
      list order, each year in full before the next. */
  lemma {:induction false} ExtractCrimesFetchOrder<V>(cfg: Config, fetch: string -> Frame<V>, years: seq<int>)
    requires ExtractCrimes(cfg, fetch, years).status.Completed?
    ensures Fetches(ExtractCrimes(cfg, fetch, years).events) == YearsUrls(cfg, years)
    ensures |Fetches(ExtractCrimes(cfg, fetch, years).events)| == 12 * |years|
  {
    if |years| > 0 {
      var first := IngestCrimesForYear(cfg, fetch, years[0]);
      var rest := ExtractCrimes(cfg, fetch, years[1..]);
      MonthsFetchOrder(cfg, fetch, years[0], 1);
      FetchesAppend(first.events, rest.events);
      ExtractCrimesFetchOrder(cfg, fetch, years[1..]);
    }
  }

  /** With the default years, a completed run downloads all of 2022, then
      all of 2023: 24 downloads. */
  lemma DefaultYearsFetches<V>(cfg: Config, fetch: string -> Frame<V>)
    requires ExtractCrimes(cfg, fetch, DefaultYears).status.Completed?
    ensures |Fetches(ExtractCrimes(cfg, fetch, DefaultYears).events)| == 24
    ensures Fetches(ExtractCrimes(cfg, fetch, DefaultYears).events)
            == MonthUrlsFrom(cfg, 2022, 1) + MonthUrlsFrom(cfg, 2023, 1)
  {
    ExtractCrimesFetchOrder(cfg, fetch, DefaultYears);
    assert DefaultYears[1..] == [2023];
    assert YearsUrls(cfg, [2023]) == MonthUrlsFrom(cfg, 2023, 1) + YearsUrls(cfg, []);
  }

  /** The partition paths of the months of `year` whose download has rows,
      in increasing month order. */
  function YearPaths<V>(cfg: Config, fetch: string -> Frame<V>, year: int): (paths: seq<string>)
    ensures |paths| <= 12
  {
    Map(Filter(MonthsFrom(1), HasRowsIn(cfg, fetch, year)), m => PartitionPath(cfg, year, m))
  }

  /** Those paths for every year, years in list order. */
  function YearsPaths<V>(cfg: Config, fetch: string -> Frame<V>, years: seq<int>): (paths: seq<string>)
    ensures |paths| <= 12 * |years|
  {
    if |years| == 0 then [] else YearPaths(cfg, fetch, years[0]) + YearsPaths(cfg, fetch, years[1..])
  }

  /** A completed extraction writes, year by year in list order, the
      partition path of every month whose download has rows, months in
      increasing order. */
  lemma {:induction false} ExtractCrimesWrites<V>(cfg: Config, fetch: string -> Frame<V>, years: seq<int>)
    requires ExtractCrimes(cfg, fetch, years).status.Completed?
    ensures Writes(ExtractCrimes(cfg, fetch, years).events) == YearsPaths(cfg, fetch, years)
  {
    if |years| > 0 {
      var first := IngestCrimesForYear(cfg, fetch, years[0]);
      var rest := ExtractCrimes(cfg, fetch, years[1..]);
      MonthsWrites(cfg, fetch, years[0], 1);
      WritesAppend(first.events, rest.events);
      ExtractCrimesWrites(cfg, fetch, years[1..]);
    }
  }
}

=== FILE: frames.dfy ===
/** Tabular batches as the extractors see them: named columns and rows of
    cells, where a cell may be missing.  Cell values are opaque (`V`); type
    coercion to the declared schema is not modelled. */
module Frames {
  import opened Results
  import opened Seqs

  /** A cell of a raw batch: missing (`NaN`/`None`), the empty string that
      `fillna('')` writes, or a value read from the CSV. */
  datatype Cell<V> = Null | Blank | Present(value: V)

  type Row<V> = seq<Cell<V>>

  datatype Frame<V> = Frame(columns: seq<string>, rows: seq<Row<V>>)

  /** Every row has one cell per column, as in any data frame. */
  predicate WellFormed<V>(f: Frame<V>) {
    forall i | 0 <= i < |f.rows| :: |f.rows[i]| == |f.columns|
  }

  /** `DataFrame.empty`: true when either axis has length zero. */
  predicate IsEmpty<V>(f: Frame<V>) {
    |f.rows| == 0 || |f.columns| == 0
  }

  /** The row has a value in every column called `name`; a frame may repeat
      a column name, and `df[[name]].notnull().all(1)` then asks all of them. */
  predicate HasValue<V>(columns: seq<string>, name: string, row: Row<V>) {
    forall i | 0 <= i < |columns| && i < |row| && columns[i] == name :: !row[i].Null?
  }

  /** The row mask of `df[[name]].notnull().all(1)` as a predicate on rows. */
  function ValueIn<V>(columns: seq<string>, name: string): Row<V> -> bool {
    row => HasValue(columns, name, row)
  }

  /** The row mask of the two successive coordinate filters, as one predicate. */
  function CoordinatesIn<V>(columns: seq<string>, lat: string, lon: string): Row<V> -> bool {
    row => HasValue(columns, lat, row) && HasValue(columns, lon, row)
  }

  /** `df = df[df[[name]].notnull().all(1)]`: selecting a column the frame
      lacks raises `KeyError`; otherwise the rows with a value in it are kept. */
  function DropNulls<V>(f: Frame<V>, name: string): (r: Result<Frame<V>>)
    ensures r.Err? <==> name !in f.columns
    ensures r.Err? ==> r.error == MissingColumn(name)
    ensures r.Ok? ==> r.value.columns == f.columns
    ensures r.Ok? ==> SelectsExactly(r.value.rows, f.rows, ValueIn(f.columns, name))
    ensures r.Ok? && WellFormed(f) ==> WellFormed(r.value)
  {
    if name !in f.columns then Err(MissingColumn(name))
    else
      var rows := Filter(f.rows, ValueIn(f.columns, name));
      assert WellFormed(f) ==> WellFormed(Frame(f.columns, rows)) by {
        if WellFormed(f) {
          forall i | 0 <= i < |rows|
            ensures |rows[i]| == |f.columns|
          {
            assert rows[i] in f.rows;
            var k :| 0 <= k < |f.rows| && f.rows[k] == rows[i];
          }
        }
      }
      Ok(Frame(f.columns, rows))
  }

  /** The latitude filter followed by the longitude filter.  The latitude
      column is selected first, so its absence is the error reported when
      both are missing. */
  function DropRowsMissingCoordinates<V>(f: Frame<V>, lat: string, lon: string): (r: Result<Frame<V>>)
    ensures r.Err? <==> lat !in f.columns || lon !in f.columns
    ensures r.Err? ==> r.error == MissingColumn(if lat !in f.columns then lat else lon)
    ensures r.Ok? ==> r.value.columns == f.columns
    ensures r.Ok? ==> SelectsExactly(r.value.rows, f.rows, CoordinatesIn(f.columns, lat, lon))
    ensures r.Ok? && WellFormed(f) ==> WellFormed(r.value)
  {
    match DropNulls(f, lat)
    case Err(e) => Err(e)
    case Ok(g) =>
      var r := DropNulls(g, lon);
      assert r.Ok? ==> r.value.rows == Filter(f.rows, CoordinatesIn(f.columns, lat, lon)) by {
        if r.Ok? {
          FilterFilter(f.rows, ValueIn(f.columns, lat), ValueIn(f.columns, lon), CoordinatesIn(f.columns, lat, lon));
        }
      }
      r
  }

  /** No cell of the frame is missing. */
  predicate NoNulls<V>(f: Frame<V>) {
    forall i, j | 0 <= i < |f.rows| && 0 <= j < |f.rows[i]| :: !f.rows[i][j].Null?
  }

  function FillCell<V>(c: Cell<V>): Cell<V> {
    if c.Null? then Blank else c
  }

  function FillRow<V>(row: Row<V>): Row<V> {
    seq(|row|, j requires 0 <= j < |row| => FillCell(row[j]))
  }

  /** `df.fillna('', inplace=True)`: every missing cell becomes the empty
      string and every other cell is left as it was. */
  function FillNulls<V>(f: Frame<V>): (r: Frame<V>)
    ensures r.columns == f.columns && |r.rows| == |f.rows|
    ensures forall i | 0 <= i < |f.rows| :: |r.rows[i]| == |f.rows[i]|
    ensures NoNulls(r)
    ensures forall i, j | 0 <= i < |f.rows| && 0 <= j < |f.rows[i]| ::
              r.rows[i][j] == if f.rows[i][j].Null? then Blank else f.rows[i][j]
    ensures WellFormed(f) ==> WellFormed(r)
  {
    Frame(f.columns, seq(|f.rows|, i requires 0 <= i < |f.rows| => FillRow(f.rows[i])))
  }

  /** Filling changes nothing exactly when nothing is missing. */
  lemma FillNullsIdentityIff<V>(f: Frame<V>)
    ensures FillNulls(f) == f <==> NoNulls(f)
  {
    if NoNulls(f) {
      var r := FillNulls(f);
      forall i | 0 <= i < |f.rows|
        ensures r.rows[i] == f.rows[i]
      {
      }
    }
  }

  /** After filling, every row has a value in every column. */
  lemma FilledRowsHaveValues<V>(f: Frame<V>, name: string)
    ensures forall row | row in FillNulls(f).rows :: HasValue(f.columns, name, row)
  {
  }
}

=== FILE: lake_layout.dfy ===
/** How the upload paths of the extractors line up with the wildcard URIs
    the warehouse loader reads through.  Both sides resolve the lake path
    and file stem from the same environment variables, so the loader's
    crimes pattern matches every monthly upload path of the extractor; the
    schools defaults, and the legacy per-year layout, do not line up.
    Object names are taken to be the upload paths verbatim. */
module LakeLayout {
  import opened Text
  import opened Wildcards
  import opened Settings
  import CrimesExtract
  import SchoolsExtract
  import WarehouseLoad
  import LegacyIngest

  /** The storage URI of the object at `path` in `bucket`. */
  function ObjectUri(bucket: string, path: string): string {
    "gs://" + bucket + "/" + path
  }

  /** The loader's URI pattern is the object URI of the stem, a `*`, then
      the Parquet extension. */
  lemma GlobShape(bucket: string, path: string, stem: string)
    ensures WarehouseLoad.Glob(bucket, path, stem) == ObjectUri(bucket, path + stem) + "*" + ".parquet"
  {
    assert "*.parquet" == "*" + ".parquet";
  }

  lemma Regroup(head: string, stem: string, year: string, month: string, extension: string)
    ensures head + (stem + "_" + year + "_" + month + extension)
            == (head + stem) + ("_" + year + "_" + month) + extension
  {
  }

  /** Every monthly crimes upload path lands under the pattern built from
      the same bucket, lake path and stem, whatever the year and month. */
  lemma PartitionMatchesGlob(bucket: string, cfg: CrimesExtract.Config, year: int, month: int)
    ensures Matches(WarehouseLoad.Glob(bucket, cfg.path, cfg.fileStem),
                    ObjectUri(bucket, CrimesExtract.PartitionPath(cfg, year, month)))
  {
    var head := "gs://" + bucket + "/";
    var prefix := ObjectUri(bucket, cfg.path + cfg.fileStem);
    var middle := "_" + IntToDecimal(year) + "_" + Pad2(month);
    GlobShape(bucket, cfg.path, cfg.fileStem);
    Regroup(head, cfg.path + cfg.fileStem, IntToDecimal(year), Pad2(month), ".parquet");
    MatchesStarInfix(prefix, middle, ".parquet");
  }

  /** Under any one environment, the loader's crimes pattern matches every
      upload path of the crimes extractor, taken in the loader's bucket. */
  lemma SharedEnvCrimesAgree(env: Env, year: int, month: int)
    ensures Matches(WarehouseLoad.CrimesGlob(WarehouseLoad.ConfigFrom(env)),
                    ObjectUri(WarehouseLoad.ConfigFrom(env).bucket,
                              CrimesExtract.PartitionPath(CrimesExtract.ConfigFrom(env), year, month)))
  {
    var writer := CrimesExtract.ConfigFrom(env);
    var loader := WarehouseLoad.ConfigFrom(env);
    assert writer.path == loader.crimesPath && writer.fileStem == loader.crimesFile;
    PartitionMatchesGlob(loader.bucket, writer, year, month);
  }

  /** Conversely, an object the crimes pattern matches starts with the
      URI of the configured stem. */
  lemma CrimesGlobNeedsStem(cfg: WarehouseLoad.Config, name: string)
    requires '*' !in ObjectUri(cfg.bucket, cfg.crimesPath + cfg.crimesFile)
    requires Matches(WarehouseLoad.CrimesGlob(cfg), name)
    ensures ObjectUri(cfg.bucket, cfg.crimesPath + cfg.crimesFile) <= name
  {
    var literal := ObjectUri(cfg.bucket, cfg.crimesPath + cfg.crimesFile);
    GlobShape(cfg.bucket, cfg.crimesPath, cfg.crimesFile);
    assert WarehouseLoad.CrimesGlob(cfg) == literal + "*.parquet";
    LiteralPrefixRequired(literal, "*.parquet", name);
  }

  /** The schools file lands under the pattern built from the same bucket,
      lake path and stem: the `*` stands for nothing. */
  lemma SchoolsPathMatchesGlob(bucket: string, cfg: SchoolsExtract.Config)
    ensures Matches(WarehouseLoad.Glob(bucket, cfg.path, cfg.fileStem),
                    ObjectUri(bucket, SchoolsExtract.SchoolsPath(cfg)))
  {
    var prefix := ObjectUri(bucket, cfg.path + cfg.fileStem);
    GlobShape(bucket, cfg.path, cfg.fileStem);
    assert ObjectUri(bucket, SchoolsExtract.SchoolsPath(cfg)) == prefix + "" + ".parquet";
    MatchesStarInfix(prefix, "", ".parquet");
  }

  /** When the environment names the schools file stem, the loader's
      external schools table covers the file the schools extractor writes. */
  lemma SharedEnvSchoolsAgree(env: Env)
    requires "GCS_BUCKET_SCHOOLS_FILE_NAME" in env
    ensures Matches(WarehouseLoad.SchoolsGlob(WarehouseLoad.ConfigFrom(env)),
                    ObjectUri(WarehouseLoad.ConfigFrom(env).bucket,
                              SchoolsExtract.SchoolsPath(SchoolsExtract.ConfigFrom(env))))
  {
    var writer := SchoolsExtract.ConfigFrom(env);
    var loader := WarehouseLoad.ConfigFrom(env);
    assert writer.path == loader.schoolsPath && writer.fileStem == loader.schoolsFile;
    SchoolsPathMatchesGlob(loader.bucket, writer);
  }

  /** With the defaults the two sides disagree on the schools stem
      (`chicago_schools` written, `schools*` read): in any bucket, the
      default schools pattern does not match the default schools file. */
  lemma SchoolsDefaultsDisagree(bucket: string)
    requires '*' !in bucket
    ensures !Matches(WarehouseLoad.Glob(bucket, WarehouseLoad.DefaultConfig.schoolsPath,
                                        WarehouseLoad.DefaultConfig.schoolsFile),
                     ObjectUri(bucket, SchoolsExtract.SchoolsPath(SchoolsExtract.DefaultConfig)))
  {
    var head := "gs://" + bucket + "/data/";
    var literal := head + "schools";
    var name := head + "chicago_schools.parquet";
    assert WarehouseLoad.Glob(bucket, "data/", "schools") == literal + "*.parquet";
    assert ObjectUri(bucket, SchoolsExtract.SchoolsPath(SchoolsExtract.DefaultConfig)) == name;
    assert '*' !in literal by {
      assert forall i | 0 <= i < |literal| :: literal[i] == '*' ==> i < |"gs://" + bucket|;
    }
    assert literal[|head|] != name[|head|];
    if Matches(literal + "*.parquet", name) {
      LiteralPrefixRequired(literal, "*.parquet", name);
    }
  }

  /** The legacy ingester's per-year files lie outside the crimes pattern
      with the loader's default lake path and stem, so the external crimes
      table never reads them. */
  lemma LegacyFilesOutsideCrimesGlob(cfg: WarehouseLoad.Config, year: int, month: int)
    requires '*' !in cfg.bucket
    requires cfg.crimesPath == "data/crimes/" && cfg.crimesFile == "chicago_crimes_"
    ensures !Matches(WarehouseLoad.CrimesGlob(cfg), ObjectUri(cfg.bucket, LegacyIngest.LegacyPath(year, month)))
  {
    var literal := ObjectUri(cfg.bucket, "data/crimes/chicago_crimes_");
    var name := ObjectUri(cfg.bucket, LegacyIngest.LegacyPath(year, month));
    assert cfg.crimesPath + cfg.crimesFile == "data/crimes/chicago_crimes_";
    assert ObjectUri(cfg.bucket, cfg.crimesPath + cfg.crimesFile) == literal;
    DefaultCrimesStemStarFree(cfg.bucket);
    LegacyUriDiffers(cfg.bucket, year, month);
    if Matches(WarehouseLoad.CrimesGlob(cfg), name) {
      CrimesGlobNeedsStem(cfg, name);
    }
  }

  lemma DefaultCrimesStemStarFree(bucket: string)
    requires '*' !in bucket
    ensures '*' !in ObjectUri(bucket, "data/crimes/chicago_crimes_")
  {
    StarFreeUri(bucket, "data/crimes/chicago_crimes_");
  }

  lemma StarFreeUri(bucket: string, path: string)
    requires '*' !in bucket && '*' !in path
    ensures '*' !in ObjectUri(bucket, path)
  {
    var uri := ObjectUri(bucket, path);
    forall i | 0 <= i < |uri|
      ensures uri[i] != '*'
    {
      if i < 5 {
      } else if i < 5 + |bucket| {
        assert uri[i] == bucket[i - 5];
      } else if i == 5 + |bucket| {
      } else {
        assert uri[i] == path[i - 6 - |bucket|];
      }
    }
  }

  /** Where the stem's first letter stands, a legacy object URI has the
      first character of the year. */
  lemma LegacyUriDiffers(bucket: string, year: int, month: int)
    ensures !(ObjectUri(bucket, "data/crimes/chicago_crimes_")
              <= ObjectUri(bucket, LegacyIngest.LegacyPath(year, month)))
  {
    var head := "gs://" + bucket + "/";
    var path := LegacyIngest.LegacyPath(year, month);
    var digits := IntToDecimal(year);
    LegacyIngest.LegacyPathInYearDirectory(year, month);
    assert path[12] == LegacyIngest.YearDirectory(year)[12] == digits[0];
    assert digits[0] == '-' || IsDigit(digits[0]);
    assert ObjectUri(bucket, "data/crimes/chicago_crimes_")[|head| + 12] == 'c';
    assert ObjectUri(bucket, path)[|head| + 12] == path[12];
  }
}

=== FILE: legacy_ingest.dfy ===
/** The older crime ingester, kept beside the calendar-correct one.  Its
    window always runs from second 01 of day 01 to day 31, its query has no
    row cap, its lake path has a per-year directory, and it cleans and
    writes every month, empty or not. */
module LegacyIngest {
  import opened Results
  import opened Text
  import opened Calendar
  import opened Seqs
  import opened Frames
  import opened Settings
  import opened Trace
  import CrimesExtract

  const LatitudeColumn := "latitude"
  const LongitudeColumn := "longitude"
  const DefaultYears: seq<int> := [2022, 2023]

  datatype Config = Config(sourceUrl: string)

  const DefaultConfig := Config("https://data.cityofchicago.org/resource/ijzp-q8t2.csv")

  function ConfigFrom(env: Env): (cfg: Config)
    ensures env == map[] ==> cfg == DefaultConfig
  {
    Config(Lookup(env, "RAW_DATA_CRIMES_URL", DefaultConfig.sourceUrl))
  }

  /** The query's opening fragment as written, cut inside the `%20` escape. */
  const StartFilter := "?$where=date%20between%"

  /** The same fragment with its escape completed. */
  const WhereDateBetween := "?$where=date%20between%20%27"

  function LegacyStartBound(year: int, month: int): string {
    IntToDecimal(year) + "-" + Pad2(month) + "-01T00:00:01"
  }

  function LegacyEndBound(year: int, month: int): string {
    IntToDecimal(year) + "-" + Pad2(month) + "-31T23:59:59"
  }

  /** The instants the two written bounds denote. */
  function LegacyStart(year: int, month: int): Timestamp {
    Timestamp(year, month, 1, 0, 0, 1)
  }

  function LegacyEnd(year: int, month: int): Timestamp {
    Timestamp(year, month, 31, 23, 59, 59)
  }

  /** `get_data_for_month`: the source URL and the date predicate, with no
      row cap; no month validation happens. */
  function LegacyUrl(cfg: Config, year: int, month: int): string {
    var startDate := LegacyStartBound(year, month);
    var endDate := LegacyEndBound(year, month);
    cfg.sourceUrl + (StartFilter + "20%27" + startDate + CrimesExtract.And + endDate + CrimesExtract.Quote)
  }

  lemma RegroupClock(date: string, day: string, hour: string, minute: string, second: string)
    ensures date + "-" + day + "T" + hour + ":" + minute + ":" + second
            == date + ("-" + day + "T" + hour + ":" + minute + ":" + second)
  {
  }

  lemma StartClock()
    ensures "-" + Pad2(1) + "T" + Pad2(0) + ":" + Pad2(0) + ":" + Pad2(1) == "-01T00:00:01"
  {
    assert Pad2(1) == "01" && Pad2(0) == "00";
  }

  lemma EndClock()
    ensures "-" + Pad2(31) + "T" + Pad2(23) + ":" + Pad2(59) + ":" + Pad2(59) == "-31T23:59:59"
  {
    assert Pad2(31) == "31" && Pad2(23) == "23" && Pad2(59) == "59";
  }

  /** The written start bound is the ISO form of second 01 of day 01. */
  lemma LegacyStartBoundIsIso(year: int, month: int)
    ensures LegacyStartBound(year, month) == Iso(LegacyStart(year, month))
  {
    RegroupClock(IntToDecimal(year) + "-" + Pad2(month), Pad2(1), Pad2(0), Pad2(0), Pad2(1));
    StartClock();
  }

  /** The written end bound is the ISO form of the last second of day 31. */
  lemma LegacyEndBoundIsIso(year: int, month: int)
    ensures LegacyEndBound(year, month) == Iso(LegacyEnd(year, month))
  {
    RegroupClock(IntToDecimal(year) + "-" + Pad2(month), Pad2(31), Pad2(23), Pad2(59), Pad2(59));
    EndClock();
  }

  /** The URL's bounds are one second after the month's first instant and
      the 31st day's last second, whatever the month's length. */
  lemma LegacyUrlWindow(cfg: Config, year: int, month: int)
    ensures LegacyUrl(cfg, year, month)
            == cfg.sourceUrl + (WhereDateBetween + Iso(LegacyStart(year, month))
               + CrimesExtract.And + Iso(LegacyEnd(year, month)) + CrimesExtract.Quote)
  {
    assert StartFilter + "20%27" == WhereDateBetween;
    LegacyStartBoundIsIso(year, month);
    LegacyEndBoundIsIso(year, month);
  }

  /** The legacy window holds every instant of the month except its very
      first second. */
  lemma LegacyWindowExact(year: int, month: int, t: Timestamp)
    requires 1 <= month <= 12 && Valid(t)
    ensures Between(t, LegacyStart(year, month), LegacyEnd(year, month))
            <==> t.year == year && t.month == month && t != CrimesExtract.MonthStart(year, month)
  {
  }

  /** The month's first second is a real instant that the calendar-correct
      window fetches and the legacy window does not. */
  lemma LegacyMissesMonthStart(year: int, month: int)
    requires 1 <= month <= 12
    ensures Valid(CrimesExtract.MonthStart(year, month))
    ensures Between(CrimesExtract.MonthStart(year, month),
                    CrimesExtract.MonthStart(year, month), CrimesExtract.MonthEnd(year, month))
    ensures !Between(CrimesExtract.MonthStart(year, month), LegacyStart(year, month), LegacyEnd(year, month))
  {
  }

  /** The end bound names a real date only in the seven 31-day months. */
  lemma LegacyEndValidIff(year: int, month: int)
    requires 1 <= month <= 12
    ensures Valid(LegacyEnd(year, month)) <==> DaysIn(year, month) == 31
    ensures Valid(LegacyEnd(year, month)) <==> month in {1, 3, 5, 7, 8, 10, 12}
  {
  }

  /** `clean_data`: drop rows missing latitude, then rows missing longitude;
      no fill step. */
  function CleanData<V>(f: Frame<V>): (r: Result<Frame<V>>)
    ensures r.Err? <==> LatitudeColumn !in f.columns || LongitudeColumn !in f.columns
    ensures r.Err? ==> r.error == MissingColumn(
      if LatitudeColumn !in f.columns then LatitudeColumn else LongitudeColumn)
    ensures r.Ok? ==> r.value.columns == f.columns
    ensures r.Ok? ==> SelectsExactly(r.value.rows, f.rows, CoordinatesIn(f.columns, LatitudeColumn, LongitudeColumn))
  {
    DropRowsMissingCoordinates(f, LatitudeColumn, LongitudeColumn)
  }

  /** `write_to_gcs`: `data/crimes/<year>/chicago_crimes_<year>_<MM>.parquet`. */
  function LegacyPath(year: int, month: int): string {
    YearDirectory(year) + ("chicago_crimes_" + IntToDecimal(year) + "_" + Pad2(month) + ".parquet")
  }

  function YearDirectory(year: int): string {
    "data/crimes/" + IntToDecimal(year) + "/"
  }

  /** The year's directory holds the file: the path begins with
      `data/crimes/<year>/`. */
  lemma LegacyPathInYearDirectory(year: int, month: int)
    ensures YearDirectory(year) <= LegacyPath(year, month)
    ensures "data/crimes/" <= LegacyPath(year, month)
  {
    var rest := "chicago_crimes_" + IntToDecimal(year) + "_" + Pad2(month) + ".parquet";
    PrefixOfConcat(YearDirectory(year), rest);
    PrefixOfConcat("data/crimes/", IntToDecimal(year) + "/");
  }

  /** Fetch, clean and write one month, with no check for an empty batch. */
  function IngestMonth<V>(cfg: Config, fetch: string -> Frame<V>, year: int, month: int): Run<V> {
    var url := LegacyUrl(cfg, year, month);
    match CleanData(fetch(url))
    case Err(e) => Run([Fetch(url)], Failed(e))
    case Ok(clean) => Run([Fetch(url), Write(LegacyPath(year, month), clean)], Completed)
  }

  /** The months loop of `ingest_data_for_year`, from `month` to 12. */
  function IngestMonthsFrom<V>(cfg: Config, fetch: string -> Frame<V>, year: int, month: int): Run<V>
    decreases 13 - month
  {
    if month > 12 then Run([], Completed)
    else Then(IngestMonth(cfg, fetch, year, month), IngestMonthsFrom(cfg, fetch, year, month + 1))
  }

  /** `ingest_data_for_year` */
  function IngestDataForYear<V>(cfg: Config, fetch: string -> Frame<V>, year: int): Run<V> {
    IngestMonthsFrom(cfg, fetch, year, 1)
  }

  /** `ingest_data`: the years in list order. */
  function IngestData<V>(cfg: Config, fetch: string -> Frame<V>, years: seq<int>): Run<V> {
    if |years| == 0 then Run([], Completed)
    else Then(IngestDataForYear(cfg, fetch, years[0]), IngestData(cfg, fetch, years[1..]))
  }

  /** The month's batch carries both coordinate columns. */
  predicate Cleanable<V>(cfg: Config, fetch: string -> Frame<V>, year: int, month: int) {
    CleanData(fetch(LegacyUrl(cfg, year, month))).Ok?
  }

  /** The months loop completes exactly when every batch from `month` to
      12 carries both coordinate columns; an empty batch is no exception. */
  lemma {:induction false} MonthsCompleteIff<V>(cfg: Config, fetch: string -> Frame<V>, year: int, month: int)
    requires 1 <= month <= 13
    ensures IngestMonthsFrom(cfg, fetch, year, month).status.Completed?
            <==> forall m | month <= m <= 12 :: Cleanable(cfg, fetch, year, m)
    decreases 13 - month
  {
    if month <= 12 {
      MonthsCompleteIff(cfg, fetch, year, month + 1);
      var step := IngestMonth(cfg, fetch, year, month);
      assert step.status.Completed? <==> Cleanable(cfg, fetch, year, month);
      if Cleanable(cfg, fetch, year, month) {
        assert (forall m | month <= m <= 12 :: Cleanable(cfg, fetch, year, m))
               <==> (forall m | month + 1 <= m <= 12 :: Cleanable(cfg, fetch, year, m));
      }
    }
  }

  /** The URLs of months `month` to 12, in increasing order. */
  function MonthUrlsFrom(cfg: Config, year: int, month: int): (urls: seq<string>)
    requires 1 <= month <= 13
    ensures |urls| == 13 - month
  {
    Map(CrimesExtract.MonthsFrom(month), m => LegacyUrl(cfg, year, m))
  }

  lemma MonthUrlsFromStep(cfg: Config, year: int, month: int)
    requires 1 <= month <= 12
    ensures MonthUrlsFrom(cfg, year, month) == [LegacyUrl(cfg, year, month)] + MonthUrlsFrom(cfg, year, month + 1)
  {
    CrimesExtract.MonthsFromStep(month);
    MapAppend([month], CrimesExtract.MonthsFrom(month + 1), m => LegacyUrl(cfg, year, m));
  }

  /** The loop downloads the months in increasing order, stopping after the
      first batch that cannot be cleaned; a completed loop downloads every
      month from `month` to 12. */
  lemma {:induction false} MonthsFetches<V>(cfg: Config, fetch: string -> Frame<V>, year: int, month: int)
    requires 1 <= month <= 13
    ensures Fetches(IngestMonthsFrom(cfg, fetch, year, month).events) <= MonthUrlsFrom(cfg, year, month)
    ensures IngestMonthsFrom(cfg, fetch, year, month).status.Completed? ==>
              Fetches(IngestMonthsFrom(cfg, fetch, year, month).events) == MonthUrlsFrom(cfg, year, month)
    decreases 13 - month
  {
    if month <= 12 {
      var step := IngestMonth(cfg, fetch, year, month);
      var rest := IngestMonthsFrom(cfg, fetch, year, month + 1);
      MonthUrlsFromStep(cfg, year, month);
      assert Fetches(step.events) == [LegacyUrl(cfg, year, month)];
      if step.status.Completed? {
        FetchesAppend(step.events, rest.events);
        MonthsFetches(cfg, fetch, year, month + 1);
      }
    }
  }

  /** The paths of months `month` to 12, in increasing order. */
  function MonthPathsFrom(year: int, month: int): (paths: seq<string>)
    requires 1 <= month <= 13
    ensures |paths| == 13 - month
  {
    Map(CrimesExtract.MonthsFrom(month), m => LegacyPath(year, m))
  }

  lemma MonthPathsFromStep(year: int, month: int)
    requires 1 <= month <= 12
    ensures MonthPathsFrom(year, month) == [LegacyPath(year, month)] + MonthPathsFrom(year, month + 1)
  {
    CrimesExtract.MonthsFromStep(month);
    MapAppend([month], CrimesExtract.MonthsFrom(month + 1), m => LegacyPath(year, m));
  }

  /** A completed loop uploads one file for every month from `month` to 12,
      in increasing order, each at its month's year-directory path. */
  lemma {:induction false} MonthsWrites<V>(cfg: Config, fetch: string -> Frame<V>, year: int, month: int)
    requires 1 <= month <= 13
    requires IngestMonthsFrom(cfg, fetch, year, month).status.Completed?
    ensures Writes(IngestMonthsFrom(cfg, fetch, year, month).events) == MonthPathsFrom(year, month)
    decreases 13 - month
  {
    if month <= 12 {
      var step := IngestMonth(cfg, fetch, year, month);
      var rest := IngestMonthsFrom(cfg, fetch, year, month + 1);
      MonthPathsFromStep(year, month);
      assert Writes(step.events) == [LegacyPath(year, month)];
      WritesAppend(step.events, rest.events);
      MonthsWrites(cfg, fetch, year, month + 1);
    }
  }

  /** The upload a month owes: its year-directory path and its cleaned batch. */
  function UploadFor<V>(cfg: Config, fetch: string -> Frame<V>, year: int): int -> (string, Result<Frame<V>>) {
    month => (LegacyPath(year, month), CleanData(fetch(LegacyUrl(cfg, year, month))))
  }

  /** In a completed run, the loop uploads one batch per month from `month`
      to 12, in increasing order: that month's download after cleaning, at
      that month's path. */
  lemma {:induction false} MonthsUploads<V>(cfg: Config, fetch: string -> Frame<V>, year: int, month: int)
    requires 1 <= month <= 13
    requires IngestMonthsFrom(cfg, fetch, year, month).status.Completed?
    ensures Map(Uploads(IngestMonthsFrom(cfg, fetch, year, month).events), Succeeded)
            == Map(CrimesExtract.MonthsFrom(month), UploadFor(cfg, fetch, year))
    decreases 13 - month
  {
    var upload := UploadFor(cfg, fetch, year);
    if month <= 12 {
      var step := IngestMonth(cfg, fetch, year, month);
      var rest := IngestMonthsFrom(cfg, fetch, year, month + 1);
      var clean := CleanData(fetch(LegacyUrl(cfg, year, month))).value;
      assert step.events[1..][1..] == [];
      assert Uploads(step.events) == [(LegacyPath(year, month), clean)];
      assert Map(Uploads(step.events), Succeeded) == Map([month], upload);
      CrimesExtract.MonthsFromStep(month);
      UploadsAppend(step.events, rest.events);
      MapAppend(Uploads(step.events), Uploads(rest.events), Succeeded);
      MonthsUploads(cfg, fetch, year, month + 1);
      MapAppend([month], CrimesExtract.MonthsFrom(month + 1), upload);
    }
  }

  /** The URLs of all months of all years, years in list order. */
  function YearsUrls(cfg: Config, years: seq<int>): (urls: seq<string>)
    ensures |urls| == 12 * |years|
  {
    if |years| == 0 then [] else MonthUrlsFrom(cfg, years[0], 1) + YearsUrls(cfg, years[1..])
  }

  /** The paths of all months of all years, years in list order. */
  function YearsPaths(years: seq<int>): (paths: seq<string>)
    ensures |paths| == 12 * |years|
  {
    if |years| == 0 then [] else MonthPathsFrom(years[0], 1) + YearsPaths(years[1..])
  }

  /** A completed legacy run downloads and uploads all twelve months of
      every year, years in list order and months in increasing order. */
  lemma {:induction false} IngestDataTrace<V>(cfg: Config, fetch: string -> Frame<V>, years: seq<int>)
    requires IngestData(cfg, fetch, years).status.Completed?
    ensures Fetches(IngestData(cfg, fetch, years).events) == YearsUrls(cfg, years)
    ensures Writes(IngestData(cfg, fetch, years).events) == YearsPaths(years)
    ensures |Writes(IngestData(cfg, fetch, years).events)| == 12 * |years|
  {
    if |years| > 0 {
      var first := IngestDataForYear(cfg, fetch, years[0]);
      var rest := IngestData(cfg, fetch, years[1..]);
      MonthsFetches(cfg, fetch, years[0], 1);
      MonthsWrites(cfg, fetch, years[0], 1);
      FetchesAppend(first.events, rest.events);
      WritesAppend(first.events, rest.events);
      IngestDataTrace(cfg, fetch, years[1..]);
    }
  }

  /** A completed run over two years uploads all of the first year, then
      all of the second. */
  lemma TwoYearsTrace<V>(cfg: Config, fetch: string -> Frame<V>, years: seq<int>)
    requires |years| == 2
    requires IngestData(cfg, fetch, years).status.Completed?
    ensures Writes(IngestData(cfg, fetch, years).events)
            == MonthPathsFrom(years[0], 1) + MonthPathsFrom(years[1], 1)
  {
    IngestDataTrace(cfg, fetch, years);
    YearsPathsOfTwo(years);
  }

  lemma YearsPathsOfTwo(years: seq<int>)
    requires |years| == 2
    ensures YearsPaths(years) == MonthPathsFrom(years[0], 1) + MonthPathsFrom(years[1], 1)
  {
    var rest := years[1..];
    assert rest[0] == years[1] && rest[1..] == [];
    assert YearsPaths(rest) == MonthPathsFrom(years[1], 1) + YearsPaths([]);
  }

  /** With the default years, a completed run uploads 24 files, all of
      2022 and then all of 2023. */
  lemma DefaultYearsTrace<V>(cfg: Config, fetch: string -> Frame<V>)
    requires IngestData(cfg, fetch, DefaultYears).status.Completed?
    ensures |Writes(IngestData(cfg, fetch, DefaultYears).events)| == 24
    ensures Writes(IngestData(cfg, fetch, DefaultYears).events)
            == MonthPathsFrom(2022, 1) + MonthPathsFrom(2023, 1)
  {
    TwoYearsTrace(cfg, fetch, DefaultYears);
  }
}

=== FILE: results.dfy ===
/** Failure-carrying values shared by the whole pipeline model.

    The pipeline has no error taxonomy of its own: every failure is an
    exception raised by a library call and propagated to the enclosing
    flow.  The two failures this model raises are named here; the others
    the code can meet (schema conversion, environment access, the network
    and the cloud) are outside the model. */
module Results {

  datatype Option<+T> = None | Some(value: T)

  /** A failure this model raises. */
  datatype Error =
    | IllegalMonth(month: int)     // calendar.monthrange with a month outside 1..12
    | MissingColumn(name: string)  // selecting a column the data frame does not have

  datatype Result<+T> = Ok(value: T) | Err(error: Error)
}

=== FILE: schools_extract.dfy ===
/** The schools extractor: one capped download with no date filter, a
    clean step that only drops rows without coordinates, and one lake file. */
module SchoolsExtract {
  import opened Results
  import opened Seqs
  import opened Frames
  import opened Settings
  import opened Trace

  /** The coordinate columns the clean step filters on.  The declared schema
      spells them `lat` and `long`; a batch that only has those lower-case
      columns fails the filter with a missing column. */
  const LatitudeColumn := "Lat"
  const LongitudeColumn := "Long"

  const RowLimitFilter := "?$limit=100000"

  datatype Config = Config(sourceUrl: string, path: string, fileStem: string, bucketBlock: string)

  const DefaultConfig := Config(
    "https://data.cityofchicago.org/resource/gqgn-ekwj.csv",
    "data/",
    "chicago_schools",
    "DTC-DE-BUCKET-BLOCK")

  /** Each setting is the environment variable of its name when set, else
      the default. */
  function ConfigFrom(env: Env): (cfg: Config)
    ensures env == map[] ==> cfg == DefaultConfig
  {
    Config(
      Lookup(env, "RAW_DATA_SCHOOLS_URL", DefaultConfig.sourceUrl),
      Lookup(env, "GCS_BUCKET_SCHOOLS_PATH", DefaultConfig.path),
      Lookup(env, "GCS_BUCKET_SCHOOLS_FILE_NAME", DefaultConfig.fileStem),
      Lookup(env, "GCS_BUCKET_BLOCK_NAME", DefaultConfig.bucketBlock))
  }

  /** `get_schools`: the source URL with the row cap appended. */
  function SchoolsUrl(cfg: Config): string {
    cfg.sourceUrl + RowLimitFilter
  }

  /** The query carries a single parameter, the row cap: there is no
      `&`-joined date predicate after the source URL. */
  lemma SchoolsUrlHasNoDateFilter(cfg: Config)
    ensures cfg.sourceUrl <= SchoolsUrl(cfg)
    ensures SchoolsUrl(cfg)[|cfg.sourceUrl|..] == "?$limit=100000"
    ensures '&' !in SchoolsUrl(cfg)[|cfg.sourceUrl|..]
    ensures "$limit=100000" <= SchoolsUrl(cfg)[|cfg.sourceUrl| + 1..]
  {
    assert SchoolsUrl(cfg)[|cfg.sourceUrl|..] == RowLimitFilter;
  }

  /** `clean_schools`: drop rows missing `Lat`, then rows missing `Long`.
      There is no fill step: kept rows are the input rows, unchanged. */
  function CleanSchools<V>(f: Frame<V>): (r: Result<Frame<V>>)
    ensures r.Err? <==> LatitudeColumn !in f.columns || LongitudeColumn !in f.columns
    ensures r.Err? ==> r.error == MissingColumn(
      if LatitudeColumn !in f.columns then LatitudeColumn else LongitudeColumn)
    ensures r.Ok? ==> r.value.columns == f.columns
    ensures r.Ok? ==> SelectsExactly(r.value.rows, f.rows, CoordinatesIn(f.columns, LatitudeColumn, LongitudeColumn))
  {
    DropRowsMissingCoordinates(f, LatitudeColumn, LongitudeColumn)
  }

  /** Cleaning an already cleaned batch keeps every row. */
  lemma CleanSchoolsIdempotent<V>(f: Frame<V>)
    requires CleanSchools(f).Ok?
    ensures CleanSchools(CleanSchools(f).value) == CleanSchools(f)
  {
    var c := CleanSchools(f).value;
    FilterKeepsAll(c.rows, ValueIn(c.columns, LatitudeColumn));
    FilterKeepsAll(c.rows, ValueIn(c.columns, LongitudeColumn));
  }

  /** A three-row sample batch whose middle row lacks its latitude. */
  const SampleColumns: seq<string> := ["Lat", "Long"]
  const SampleRows: seq<Row<int>> := [[Present(1), Present(2)], [Null, Present(3)], [Present(4), Present(5)]]

  lemma SampleLatitudeFilter()
    ensures Filter(SampleRows, ValueIn(SampleColumns, LatitudeColumn)) == [SampleRows[0], SampleRows[2]]
  {
    var lat := ValueIn(SampleColumns, LatitudeColumn);
    SampleLatitudes();
    assert SampleRows == [SampleRows[0], SampleRows[1], SampleRows[2]];
    FilterDropsMiddle(SampleRows[0], SampleRows[1], SampleRows[2], lat);
  }

  lemma SampleLatitudes()
    ensures ValueIn(SampleColumns, LatitudeColumn)(SampleRows[0])
    ensures !ValueIn(SampleColumns, LatitudeColumn)(SampleRows[1])
    ensures ValueIn(SampleColumns, LatitudeColumn)(SampleRows[2])
  {
    assert SampleColumns[0] == LatitudeColumn && SampleRows[1][0] == Null;
  }

  lemma FilterDropsMiddle<T>(a: T, b: T, c: T, keep: T -> bool)
    requires keep(a) && !keep(b) && keep(c)
    ensures Filter([a, b, c], keep) == [a, c]
  {
    assert [a, b, c][1..] == [b, c] && [b, c][1..] == [c] && [c][1..] == [];
  }

  lemma SampleLongitudeFilter()
    ensures Filter([SampleRows[0], SampleRows[2]], ValueIn(SampleColumns, LongitudeColumn))
            == [SampleRows[0], SampleRows[2]]
  {
    var lon := ValueIn(SampleColumns, LongitudeColumn);
    FilterKeepsAll([SampleRows[0], SampleRows[2]], lon);
  }

  /** A three-row batch with one row missing its latitude cleans to the
      other two rows, in order. */
  lemma ThreeRowBatch()
    ensures CleanSchools(Frame(SampleColumns, SampleRows))
            == Ok(Frame(SampleColumns, [SampleRows[0], SampleRows[2]]))
  {
    SampleLatitudeFilter();
    SampleLongitudeFilter();
  }

  /** `write_schools_to_gcs`: `<path><file stem>.parquet`. */
  function SchoolsPath(cfg: Config): string {
    cfg.path + cfg.fileStem + ".parquet"
  }

  lemma DefaultSchoolsPath()
    ensures SchoolsPath(DefaultConfig) == "data/chicago_schools.parquet"
  {
  }

  /** `extract_schools`: get, clean, write, once each. */
  function ExtractSchools<V>(cfg: Config, fetch: string -> Frame<V>): (r: Run<V>)
    ensures Fetches(r.events) == [SchoolsUrl(cfg)]
    ensures r.status.Completed? <==> CleanSchools(fetch(SchoolsUrl(cfg))).Ok?
    ensures r.status.Completed? ==> Writes(r.events) == [SchoolsPath(cfg)]
    ensures r.status.Failed? ==> Writes(r.events) == []
  {
    var url := SchoolsUrl(cfg);
    match CleanSchools(fetch(url))
    case Err(e) => Run([Fetch(url)], Failed(e))
    case Ok(clean) => Run([Fetch(url), Write(SchoolsPath(cfg), clean)], Completed)
  }

  /** What the flow uploads is exactly the downloaded rows that have both
      coordinates, in download order, and nothing else. */
  lemma ExtractSchoolsWritesGeoRows<V>(cfg: Config, fetch: string -> Frame<V>)
    requires ExtractSchools(cfg, fetch).status.Completed?
    ensures var fetched := fetch(SchoolsUrl(cfg));
            var written := ExtractSchools(cfg, fetch).events[1];
            && written.Write?
            && written.data.columns == fetched.columns
            && written.data.rows == Filter(fetched.rows, CoordinatesIn(fetched.columns, LatitudeColumn, LongitudeColumn))
  {
    var fetched := fetch(SchoolsUrl(cfg));
    var clean := CleanSchools(fetched).value;
    SelectsExactlyUnique(clean.rows, fetched.rows, CoordinatesIn(fetched.columns, LatitudeColumn, LongitudeColumn));
  }
}

=== FILE: seqs.dfy ===
/** Order-preserving selection from a sequence: the shape of a boolean-mask
    row selection `df[mask]` on a data frame. */
module Seqs {

  /** `a` can be obtained from `b` by deleting elements (greedy matching
      from the left decides this exactly). */
  ghost predicate IsSubsequence<T>(a: seq<T>, b: seq<T>)
    decreases |b|
  {
    if |a| == 0 then true
    else if |b| == 0 then false
    else if a[0] == b[0] then IsSubsequence(a[1..], b[1..])
    else IsSubsequence(a, b[1..])
  }

  /** `r` holds exactly the elements of `s` that satisfy `keep`, each as
      often as in `s`, in the order they have in `s`. */
  ghost predicate SelectsExactly<T>(r: seq<T>, s: seq<T>, keep: T -> bool) {
    && IsSubsequence(r, s)
    && (forall x | x in r :: keep(x))
    && (forall x | x in s && keep(x) :: multiset(r)[x] == multiset(s)[x])
  }

  /** `f` applied to each element, in order. */
  function Map<T, U>(s: seq<T>, f: T -> U): (r: seq<U>)
    ensures |r| == |s|
    ensures forall i | 0 <= i < |s| :: r[i] == f(s[i])
  {
    seq(|s|, i requires 0 <= i < |s| => f(s[i]))
  }

  lemma MapAppend<T, U>(a: seq<T>, b: seq<T>, f: T -> U)
    ensures Map(a + b, f) == Map(a, f) + Map(b, f)
  {
  }

  /** The elements of `s` satisfying `keep`, in their original order. */
  function Filter<T>(s: seq<T>, keep: T -> bool): (r: seq<T>)
    ensures |r| <= |s|
    ensures multiset(r) <= multiset(s)
    ensures forall x | x in r :: x in s
    ensures SelectsExactly(r, s, keep)
  {
    if |s| == 0 then []
    else
      assert s == [s[0]] + s[1..];
      if keep(s[0]) then [s[0]] + Filter(s[1..], keep) else Filter(s[1..], keep)
  }

  /** Deleting elements can only lower multiplicities. */
  lemma {:induction false} SubsequenceMultiset<T>(a: seq<T>, b: seq<T>)
    requires IsSubsequence(a, b)
    ensures multiset(a) <= multiset(b)
    decreases |b|
  {
    if |a| > 0 {
      assert b == [b[0]] + b[1..];
      if a[0] == b[0] {
        assert a == [a[0]] + a[1..];
        SubsequenceMultiset(a[1..], b[1..]);
      } else {
        SubsequenceMultiset(a, b[1..]);
      }
    }
  }

  /** `SelectsExactly` pins the result down: `Filter` is its only solution. */
  lemma {:induction false} SelectsExactlyUnique<T>(r: seq<T>, s: seq<T>, keep: T -> bool)
    requires SelectsExactly(r, s, keep)
    ensures r == Filter(s, keep)
    decreases |s|
  {
    if |s| == 0 {
    } else {
      var s0, rest := s[0], s[1..];
      assert s == [s0] + rest;
      if |r| > 0 && r[0] == s0 {
        assert r == [s0] + r[1..];
        assert keep(s0);
        forall x | x in rest && keep(x)
          ensures multiset(r[1..])[x] == multiset(rest)[x]
        {
          assert multiset(r)[x] == multiset(s)[x];
        }
        SelectsExactlyUnique(r[1..], rest, keep);
      } else {
        assert IsSubsequence(r, rest);
        SubsequenceMultiset(r, rest);
        assert !keep(s0);
        forall x | x in rest && keep(x)
          ensures multiset(r)[x] == multiset(rest)[x]
        {
          assert x != s0;
          assert multiset(r)[x] == multiset(s)[x];
        }
        SelectsExactlyUnique(r, rest, keep);
      }
    }
  }

  /** Selecting with a predicate every element already satisfies keeps all. */
  lemma {:induction false} FilterKeepsAll<T>(s: seq<T>, keep: T -> bool)
    requires forall x | x in s :: keep(x)
    ensures Filter(s, keep) == s
  {
    if |s| > 0 {
      FilterKeepsAll(s[1..], keep);
    }
  }

  /** The selection is the whole input exactly when every element passes. */
  lemma FilterIsIdentityIff<T>(s: seq<T>, keep: T -> bool)
    ensures Filter(s, keep) == s <==> forall x | x in s :: keep(x)
  {
    if forall x | x in s :: keep(x) {
      FilterKeepsAll(s, keep);
    }
  }

  /** Selecting twice with the same predicate is selecting once. */
  lemma FilterIdempotent<T>(s: seq<T>, keep: T -> bool)
    ensures Filter(Filter(s, keep), keep) == Filter(s, keep)
  {
    FilterKeepsAll(Filter(s, keep), keep);
  }

  /** Two successive selections are one selection with the conjunction. */
  lemma {:induction false} FilterFilter<T>(s: seq<T>, p: T -> bool, q: T -> bool, both: T -> bool)
    requires forall x :: both(x) == (p(x) && q(x))
    ensures Filter(Filter(s, p), q) == Filter(s, both)
  {
    if |s| > 0 {
      FilterFilter(s[1..], p, q, both);
      if p(s[0]) {
        assert Filter(s, p) == [s[0]] + Filter(s[1..], p);
        assert Filter(s, p)[1..] == Filter(s[1..], p);
      }
    }
  }
}

=== FILE: settings.dfy ===
/** Configuration by named environment variables with hard-coded defaults.
    The process environment becomes an explicit map. */
module Settings {

  type Env = map<string, string>

  /** `os.environ.get(name)` when `name in os.environ`, else the default. */
  function Lookup(env: Env, name: string, default: string): (v: string)
    ensures name in env ==> v == env[name]
    ensures name !in env ==> v == default
  {
    if name in env then env[name] else default
  }
}

=== FILE: text.dfy ===
/** Decimal rendering of integers as Python's `str.format` produces it,
    with `{}` for a plain integer and `{:02d}` for a zero-padded one, and
    a parser that inverts it. */
module Text {

  predicate IsDigit(c: char) {
    '0' <= c <= '9'
  }

  predicate AllDigits(s: string) {
    forall i | 0 <= i < |s| :: IsDigit(s[i])
  }

  function DigitChar(d: nat): (c: char)
    requires d < 10
    ensures IsDigit(c)
  {
    ('0' as int + d) as char
  }

  function DigitValue(c: char): (d: nat)
    requires IsDigit(c)
    ensures d < 10 && DigitChar(d) == c
  {
    c as int - '0' as int
  }

  /** Decimal digits of `n`, most significant first, without leading zeros. */
  function NatToDecimal(n: nat): (s: string)
    ensures 1 <= |s| && AllDigits(s)
    ensures n >= 10 ==> s[0] != '0' && |s| >= 2
    ensures n < 10 ==> |s| == 1
  {
    if n < 10 then [DigitChar(n)] else NatToDecimal(n / 10) + [DigitChar(n % 10)]
  }

  /** `str(n)` / `'{}'.format(n)`: a minus sign for negative values. */
  function IntToDecimal(n: int): (s: string)
    ensures 1 <= |s|
    ensures n >= 0 ==> AllDigits(s)
    ensures n < 0 ==> s[0] == '-' && AllDigits(s[1..])
  {
    if n < 0 then "-" + NatToDecimal(-n) else NatToDecimal(n)
  }

  /** `'{:02d}'.format(n)`: at least two characters, padded with a leading
      zero; the sign counts towards the width, so -5 renders as "-5". */
  function Pad2(n: int): (s: string)
    ensures 2 <= |s|
    ensures 0 <= n < 100 ==> |s| == 2 && AllDigits(s)
    ensures n >= 0 ==> AllDigits(s)
  {
    if 0 <= n < 10 then "0" + NatToDecimal(n) else IntToDecimal(n)
  }

  /** The value of a string of decimal digits (0 for the empty string). */
  function ParseNat(s: string): nat
    requires AllDigits(s)
  {
    if |s| == 0 then 0 else ParseNat(s[..|s| - 1]) * 10 + DigitValue(s[|s| - 1])
  }

  /** `ParseNat` inverts `NatToDecimal`. */
  lemma {:induction false} ParseNatToDecimal(n: nat)
    ensures ParseNat(NatToDecimal(n)) == n
  {
    if n >= 10 {
      var s := NatToDecimal(n);
      assert s[..|s| - 1] == NatToDecimal(n / 10);
      ParseNatToDecimal(n / 10);
    }
  }

  /** Leading zeros do not change the parsed value. */
  lemma {:induction false} ParseNatLeadingZero(s: string)
    requires AllDigits(s)
    ensures AllDigits("0" + s) && ParseNat("0" + s) == ParseNat(s)
  {
    if |s| > 0 {
      var t := "0" + s;
      assert t[..|t| - 1] == "0" + s[..|s| - 1];
      ParseNatLeadingZero(s[..|s| - 1]);
    }
  }

  /** The zero-padded form still parses back to the month or day it renders. */
  lemma Pad2RoundTrip(n: nat)
    ensures AllDigits(Pad2(n)) && ParseNat(Pad2(n)) == n
  {
    ParseNatToDecimal(n);
    if n < 10 {
      ParseNatLeadingZero(NatToDecimal(n));
    }
  }

  lemma NatToDecimalInjective(a: nat, b: nat)
    ensures NatToDecimal(a) == NatToDecimal(b) ==> a == b
  {
    ParseNatToDecimal(a);
    ParseNatToDecimal(b);
  }

  /** Distinct integers render differently. */
  lemma IntToDecimalInjective(a: int, b: int)
    ensures IntToDecimal(a) == IntToDecimal(b) ==> a == b
  {
    if IntToDecimal(a) == IntToDecimal(b) {
      if a < 0 && b < 0 {
        assert NatToDecimal(-a) == IntToDecimal(a)[1..];
        NatToDecimalInjective(-a, -b);
      } else if a >= 0 && b >= 0 {
        NatToDecimalInjective(a, b);
      } else {
        assert IntToDecimal(a)[0] == IntToDecimal(b)[0];
      }
    }
  }

  /** Distinct integers are zero-padded differently. */
  lemma Pad2Injective(a: int, b: int)
    ensures Pad2(a) == Pad2(b) ==> a == b
  {
    if Pad2(a) == Pad2(b) {
      if a >= 0 && b >= 0 {
        Pad2RoundTrip(a);
        Pad2RoundTrip(b);
      } else if a < 0 && b < 0 {
        IntToDecimalInjective(a, b);
      }
    }
  }

  lemma PrefixOfConcat(a: string, b: string)
    ensures a <= a + b
  {
    assert (a + b)[..|a|] == a;
  }

  lemma StripPrefix(head: string, a: string, b: string)
    requires head + a == head + b
    ensures a == b
  {
    assert a == (head + a)[|head|..];
    assert b == (head + b)[|head|..];
  }

  lemma StripSuffix(a: string, b: string, tail: string)
    requires a + tail == b + tail
    ensures a == b
  {
    assert a == (a + tail)[..|a|];
    assert b == (b + tail)[..|b|];
  }

  /** Position of the first `c` in `s`, or `|s|` when there is none. */
  function FirstIndex(s: string, c: char): (k: nat)
    ensures k <= |s|
    ensures forall i | 0 <= i < k :: s[i] != c
    ensures k < |s| ==> s[k] == c
  {
    if |s| == 0 || s[0] == c then 0 else 1 + FirstIndex(s[1..], c)
  }

  lemma {:induction false} FirstIndexAfter(a: string, sep: char, rest: string)
    requires sep !in a
    ensures FirstIndex(a + [sep] + rest, sep) == |a|
  {
    if |a| > 0 {
      assert (a + [sep] + rest)[1..] == a[1..] + [sep] + rest;
      FirstIndexAfter(a[1..], sep, rest);
    }
  }

  /** A string split at its first occurrence of `sep` splits one way only. */
  lemma SplitAtSeparator(a: string, b: string, c: string, d: string, sep: char)
    requires sep !in a && sep !in c
    requires a + [sep] + b == c + [sep] + d
    ensures a == c && b == d
  {
    var s := a + [sep] + b;
    FirstIndexAfter(a, sep, b);
    FirstIndexAfter(c, sep, d);
    assert a == s[..|a|] && c == s[..|c|];
    assert b == s[|a| + 1..] && d == s[|c| + 1..];
  }
}

=== FILE: trace.dfy ===
/** Runs of the extraction flows as traces of their externally visible
    effects: an HTTP download of a URL, and an upload of a batch to a path
    of the lake bucket.  A run ends either after its last step or at the
    first step that raises. */
module Trace {
  import opened Results
  import opened Frames

  datatype Event<V> =
    | Fetch(url: string)                  // pd.read_csv(url)
    | Write(path: string, data: Frame<V>) // upload_from_dataframe(df, to_path=path) as Parquet

  datatype Status = Completed | Failed(error: Error)

  datatype Run<V> = Run(events: seq<Event<V>>, status: Status)

  /** Run `a`, then `b` unless `a` raised. */
  function Then<V>(a: Run<V>, b: Run<V>): (r: Run<V>)
    ensures a.status.Failed? ==> r == a
    ensures a.status.Completed? ==> r.events == a.events + b.events && r.status == b.status
  {
    if a.status.Failed? then a else Run(a.events + b.events, b.status)
  }

  /** The URLs downloaded, in order. */
  function Fetches<V>(events: seq<Event<V>>): (urls: seq<string>)
    ensures |urls| <= |events|
  {
    if |events| == 0 then []
    else (if events[0].Fetch? then [events[0].url] else []) + Fetches(events[1..])
  }

  /** The paths uploaded to, in order. */
  function Writes<V>(events: seq<Event<V>>): (paths: seq<string>)
    ensures |paths| <= |events|
  {
    if |events| == 0 then []
    else (if events[0].Write? then [events[0].path] else []) + Writes(events[1..])
  }

  /** The uploads, in order: each destination path with the batch written there. */
  function Uploads<V>(events: seq<Event<V>>): (uploads: seq<(string, Frame<V>)>)
    ensures |uploads| == |Writes(events)|
    ensures forall k | 0 <= k < |uploads| :: uploads[k].0 == Writes(events)[k]
  {
    if |events| == 0 then []
    else (if events[0].Write? then [(events[0].path, events[0].data)] else []) + Uploads(events[1..])
  }

  /** An upload seen as the successful outcome of producing its batch. */
  function Succeeded<V>(upload: (string, Frame<V>)): (string, Result<Frame<V>>) {
    (upload.0, Ok(upload.1))
  }

  lemma {:induction false} FetchesAppend<V>(a: seq<Event<V>>, b: seq<Event<V>>)
    ensures Fetches(a + b) == Fetches(a) + Fetches(b)
  {
    if |a| > 0 {
      assert (a + b)[1..] == a[1..] + b;
      FetchesAppend(a[1..], b);
    } else {
      assert a + b == b;
    }
  }

  lemma {:induction false} WritesAppend<V>(a: seq<Event<V>>, b: seq<Event<V>>)
    ensures Writes(a + b) == Writes(a) + Writes(b)
  {
    if |a| > 0 {
      assert (a + b)[1..] == a[1..] + b;
      WritesAppend(a[1..], b);
    } else {
      assert a + b == b;
    }
  }

  lemma {:induction false} UploadsAppend<V>(a: seq<Event<V>>, b: seq<Event<V>>)
    ensures Uploads(a + b) == Uploads(a) + Uploads(b)
  {
    if |a| > 0 {
      assert (a + b)[1..] == a[1..] + b;
      UploadsAppend(a[1..], b);
    } else {
      assert a + b == b;
    }
  }
}

=== FILE: warehouse_load.dfy ===
/** The warehouse loader: for crimes and for schools, an external table over
    the lake's Parquet files, then a managed table copied out of it.  Every
    statement is `CREATE OR REPLACE`, so a table's definition is whatever
    the last statement naming it says. */
module WarehouseLoad {
  import opened Results
  import opened Settings
  import opened Text

  datatype Config = Config(
    project: string, warehouseBlock: string, dataset: string,
    crimesTable: string, schoolsTable: string, bucket: string,
    crimesPath: string, crimesFile: string, schoolsPath: string, schoolsFile: string)

  const DefaultConfig := Config(
    "", "DTC-DE-BQ-WAREHOUSE", "chicago",
    "crimes", "schools", "chicago",
    "data/crimes/", "chicago_crimes_", "data/", "schools")

  /** Each setting is the environment variable of its name when set, else
      the default (the variable names keep the source's spelling). */
  function ConfigFrom(env: Env): (cfg: Config)
    ensures env == map[] ==> cfg == DefaultConfig
  {
    Config(
      Lookup(env, "GCP_PROJECT", DefaultConfig.project),
      Lookup(env, "BQ_BLOCK_NAME", DefaultConfig.warehouseBlock),
      Lookup(env, "BQ_DATASET_NAME", DefaultConfig.dataset),
      Lookup(env, "BQ_CRIMES_TABEL_NAME", DefaultConfig.crimesTable),
      Lookup(env, "BQ_SCHOOLS_TABEL_NAME", DefaultConfig.schoolsTable),
      Lookup(env, "GCS_BUCKET_NAME", DefaultConfig.bucket),
      Lookup(env, "GCS_BUCKET_CRIMES_PATH", DefaultConfig.crimesPath),
      Lookup(env, "GCS_BUCKET_CRIMES_FILE_NAME", DefaultConfig.crimesFile),
      Lookup(env, "GCS_BUCKET_SCHOOLS_PATH", DefaultConfig.schoolsPath),
      Lookup(env, "GCS_BUCKET_SCHOOLS_FILE_NAME", DefaultConfig.schoolsFile))
  }

  datatype TableRef = TableRef(project: string, dataset: string, table: string)

  /** `project.dataset.table` */
  function Qualified(t: TableRef): string {
    t.project + "." + t.dataset + "." + t.table
  }

  /** The external table a managed table is loaded from. */
  function ExternalOf(t: TableRef): TableRef {
    TableRef(t.project, t.dataset, "external_" + t.table)
  }

  datatype Statement =
    | CreateExternal(target: TableRef, format: string, uris: seq<string>)
    | CreateTable(target: TableRef, partitionBy: Option<string>, clusterBy: Option<string>, source: TableRef)

  /** `gs://<bucket>/<path><file stem>*.parquet` */
  function Glob(bucket: string, path: string, fileStem: string): string {
    "gs://" + bucket + "/" + path + fileStem + "*.parquet"
  }

  function CrimesGlob(cfg: Config): string {
    Glob(cfg.bucket, cfg.crimesPath, cfg.crimesFile)
  }

  function SchoolsGlob(cfg: Config): string {
    Glob(cfg.bucket, cfg.schoolsPath, cfg.schoolsFile)
  }

  function CrimesRef(cfg: Config): TableRef {
    TableRef(cfg.project, cfg.dataset, cfg.crimesTable)
  }

  function SchoolsRef(cfg: Config): TableRef {
    TableRef(cfg.project, cfg.dataset, cfg.schoolsTable)
  }

  /** `create_ext_crimes_table` */
  function CreateExtCrimesTable(cfg: Config): Statement {
    CreateExternal(ExternalOf(CrimesRef(cfg)), "PARQUET", [CrimesGlob(cfg)])
  }

  /** `create_crimes_table`: partitioned by day, clustered by location. */
  function CreateCrimesTable(cfg: Config): Statement {
    CreateTable(CrimesRef(cfg), Some("DATE(date)"), Some("location_description"), ExternalOf(CrimesRef(cfg)))
  }

  /** `create_ext_schools_table` */
  function CreateExtSchoolsTable(cfg: Config): Statement {
    CreateExternal(ExternalOf(SchoolsRef(cfg)), "PARQUET", [SchoolsGlob(cfg)])
  }

  /** `create_schools_table`: neither partitioned nor clustered. */
  function CreateSchoolsTable(cfg: Config): Statement {
    CreateTable(SchoolsRef(cfg), None, None, ExternalOf(SchoolsRef(cfg)))
  }

  /** `load_data_to_bq`: the statements in the order they are executed. */
  function LoadStatements(cfg: Config): seq<Statement> {
    [CreateExtCrimesTable(cfg), CreateCrimesTable(cfg), CreateExtSchoolsTable(cfg), CreateSchoolsTable(cfg)]
  }

  /** What the load issues: four statements, external crimes, crimes,
      external schools, schools; both external tables read Parquet from one
      glob each; only the crimes table is partitioned and clustered; each
      managed table copies the external table of its own name, which an
      earlier statement of the same load has created. */
  lemma LoadStatementsShape(cfg: Config)
    ensures var s := LoadStatements(cfg);
      && |s| == 4
      && s[0].CreateExternal? && s[1].CreateTable? && s[2].CreateExternal? && s[3].CreateTable?
      && s[0].uris == [CrimesGlob(cfg)] && s[2].uris == [SchoolsGlob(cfg)]
      && s[0].format == "PARQUET" && s[2].format == "PARQUET"
      && s[1].target == CrimesRef(cfg) && s[3].target == SchoolsRef(cfg)
      && s[1].partitionBy == Some("DATE(date)") && s[1].clusterBy == Some("location_description")
      && s[3].partitionBy.None? && s[3].clusterBy.None?
      && (forall i | 0 <= i < 4 && s[i].CreateTable? :: s[i].source == ExternalOf(s[i].target))
      && (forall i | 0 <= i < 4 && s[i].CreateTable? ::
            exists j :: 0 <= j < i && s[j].CreateExternal? && s[j].target == s[i].source)
  {
    var s := LoadStatements(cfg);
    assert s[0].target == s[1].source && s[2].target == s[3].source;
  }

  /** The warehouse's table definitions, by table. */
  type Catalog = map<TableRef, Statement>

  /** `CREATE OR REPLACE`: the target's definition becomes this statement,
      whether or not the table existed. */
  function Execute(c: Catalog, s: Statement): Catalog {
    c[s.target := s]
  }

  function ExecuteAll(c: Catalog, ss: seq<Statement>): Catalog
    decreases |ss|
  {
    if |ss| == 0 then c else ExecuteAll(Execute(c, ss[0]), ss[1..])
  }

  /** The definitions a statement list leaves, later statements winning. */
  function Definitions(ss: seq<Statement>): Catalog
    decreases |ss|
  {
    if |ss| == 0 then map[] else map[ss[0].target := ss[0]] + Definitions(ss[1..])
  }

  /** The tables a statement list names. */
  function Targets(ss: seq<Statement>): set<TableRef>
    decreases |ss|
  {
    if |ss| == 0 then {} else {ss[0].target} + Targets(ss[1..])
  }

  lemma MapUpdateThenOverride(c: Catalog, t: TableRef, s: Statement, d: Catalog)
    ensures c[t := s] + d == c + (map[t := s] + d)
  {
  }

  /** Running statements overrides the catalog with their definitions. */
  lemma {:induction false} ExecuteAllOverrides(c: Catalog, ss: seq<Statement>)
    ensures ExecuteAll(c, ss) == c + Definitions(ss)
    decreases |ss|
  {
    if |ss| > 0 {
      ExecuteAllOverrides(Execute(c, ss[0]), ss[1..]);
      MapUpdateThenOverride(c, ss[0].target, ss[0], Definitions(ss[1..]));
    }
  }

  /** Running statements defines exactly the tables they name, on top of
      those already defined. */
  lemma {:induction false} ExecuteAllKeys(c: Catalog, ss: seq<Statement>)
    ensures ExecuteAll(c, ss).Keys == c.Keys + Targets(ss)
    decreases |ss|
  {
    if |ss| > 0 {
      ExecuteAllKeys(Execute(c, ss[0]), ss[1..]);
    }
  }

  /** Re-running any list of `CREATE OR REPLACE` statements leaves the
      catalog as one run left it. */
  lemma ExecuteAllIdempotent(c: Catalog, ss: seq<Statement>)
    ensures ExecuteAll(ExecuteAll(c, ss), ss) == ExecuteAll(c, ss)
  {
    ExecuteAllOverrides(c, ss);
    ExecuteAllOverrides(ExecuteAll(c, ss), ss);
  }

  /** Re-running the load leaves the same table definitions, and a load
      adds definitions for exactly its four targets. */
  lemma LoadIdempotent(c: Catalog, cfg: Config)
    ensures ExecuteAll(ExecuteAll(c, LoadStatements(cfg)), LoadStatements(cfg)) == ExecuteAll(c, LoadStatements(cfg))
    ensures ExecuteAll(c, LoadStatements(cfg)).Keys
            == c.Keys + {ExternalOf(CrimesRef(cfg)), CrimesRef(cfg), ExternalOf(SchoolsRef(cfg)), SchoolsRef(cfg)}
  {
    var ss := LoadStatements(cfg);
    ExecuteAllIdempotent(c, ss);
    ExecuteAllKeys(c, ss);
    var s1 := ss[1..];
    var s2 := s1[1..];
    var s3 := s2[1..];
    assert s3[1..] == [];
    assert Targets(s3) == {ss[3].target} + Targets([]);
    assert Targets(s2) == {ss[2].target} + Targets(s3);
    assert Targets(s1) == {ss[1].target} + Targets(s2);
    assert Targets(ss) == {ss[0].target} + Targets(s1);
  }

  const Indent := "\n        "

  /** The quoted URI list of an `OPTIONS (uris = [...])` clause. */
  function UriList(uris: seq<string>): string {
    if |uris| == 0 then ""
    else if |uris| == 1 then "'" + uris[0] + "'"
    else "'" + uris[0] + "', " + UriList(uris[1..])
  }

  /** `CREATE OR REPLACE <kind> `<project>.<dataset>.<table>``, on a fresh line. */
  function Header(kind: string, target: TableRef): string {
    Indent + "CREATE OR REPLACE " + kind + " `" + Qualified(target) + "`"
  }

  /** The statement's text as the loader formats it, indentation included. */
  function Render(s: Statement): (text: string)
    ensures Indent + "CREATE OR REPLACE " <= text
    ensures s.CreateExternal? ==> Header("EXTERNAL TABLE", s.target) <= text
    ensures s.CreateTable? ==> Header("TABLE", s.target) <= text
  {
    match s
    case CreateExternal(target, format, uris) =>
      var tail := Indent + "OPTIONS ("
        + "\n            format = '" + format + "',"
        + "\n            uris = [" + UriList(uris) + "]"
        + Indent + ");" + Indent;
      PrefixOfConcat(Header("EXTERNAL TABLE", target), tail);
      Header("EXTERNAL TABLE", target) + tail
    case CreateTable(target, partitionBy, clusterBy, source) =>
      var tail := (if partitionBy.Some? then Indent + "PARTITION BY " + partitionBy.value else "")
        + (if clusterBy.Some? then Indent + "CLUSTER BY " + clusterBy.value else "")
        + " AS" + Indent + "SELECT * FROM `" + Qualified(source) + "`;" + Indent;
      PrefixOfConcat(Header("TABLE", target), tail);
      Header("TABLE", target) + tail
  }

  /** `load_data_to_bq`: the texts handed to `warehouse.execute`, in order:
      the crimes external table, the crimes table built from it, then the
      same pair for schools. */
  function LoadDataToBq(cfg: Config): (texts: seq<string>)
    ensures |texts| == 4
    ensures forall i | 0 <= i < 4 :: Indent + "CREATE OR REPLACE " <= texts[i]
    ensures Header("EXTERNAL TABLE", ExternalOf(CrimesRef(cfg))) <= texts[0]
    ensures Header("TABLE", CrimesRef(cfg)) <= texts[1]
    ensures Header("EXTERNAL TABLE", ExternalOf(SchoolsRef(cfg))) <= texts[2]
    ensures Header("TABLE", SchoolsRef(cfg)) <= texts[3]
  {
    seq(4, i requires 0 <= i < 4 => Render(LoadStatements(cfg)[i]))
  }
}

=== FILE: wildcards.dfy ===
/** Object-name matching for a storage URI with `*` wildcards, as an
    external table's `uris` option uses it: `*` stands for any run of
    characters (including none and including `/`), every other character
    stands for itself. */
module Wildcards {

  function Matches(pattern: string, name: string): bool
    decreases |pattern| + |name|
  {
    if |pattern| == 0 then |name| == 0
    else if pattern[0] == '*' then
      Matches(pattern[1..], name) || (|name| > 0 && Matches(pattern, name[1..]))
    else
      |name| > 0 && name[0] == pattern[0] && Matches(pattern[1..], name[1..])
  }

  /** A pattern matches its own text: a `*` can stand for the character `*`. */
  lemma {:induction false} MatchesItself(p: string)
    ensures Matches(p, p)
    decreases |p|
  {
    if |p| > 0 {
      MatchesItself(p[1..]);
      if p[0] == '*' {
        assert Matches(p, p[1..]);
      }
    }
  }

  /** A leading `*` absorbs any run of characters. */
  lemma {:induction false} StarAbsorbs(middle: string, rest: string)
    ensures Matches("*" + rest, middle + rest)
    decreases |middle|
  {
    var p := "*" + rest;
    assert p[1..] == rest;
    if |middle| == 0 {
      assert middle + rest == rest;
      MatchesItself(rest);
    } else {
      assert (middle + rest)[1..] == middle[1..] + rest;
      StarAbsorbs(middle[1..], rest);
    }
  }

  /** `prefix*suffix` matches every name that starts with `prefix` and ends
      with `suffix` (with the two not overlapping). */
  lemma {:induction false} MatchesStarInfix(prefix: string, middle: string, suffix: string)
    ensures Matches(prefix + "*" + suffix, prefix + middle + suffix)
    decreases |prefix|
  {
    var p := prefix + "*" + suffix;
    var n := prefix + middle + suffix;
    if |prefix| == 0 {
      assert p == "*" + suffix && n == middle + suffix;
      StarAbsorbs(middle, suffix);
    } else {
      assert p[0] == n[0] == prefix[0];
      assert p[1..] == prefix[1..] + "*" + suffix;
      assert n[1..] == prefix[1..] + middle + suffix;
      MatchesStarInfix(prefix[1..], middle, suffix);
      if prefix[0] == '*' {
        assert Matches(p, n[1..]);
      }
    }
  }

  /** Up to its first `*` a pattern is literal: a matching name must start
      with that literal text. */
  lemma {:induction false} LiteralPrefixRequired(literal: string, rest: string, name: string)
    requires '*' !in literal
    requires Matches(literal + rest, name)
    ensures literal <= name
    decreases |literal|
  {
    if |literal| > 0 {
      var p := literal + rest;
      assert p[0] == literal[0] && p[1..] == literal[1..] + rest;
      LiteralPrefixRequired(literal[1..], rest, name[1..]);
    }
  }
}
